=== FILE: README.md ===
# xantfarm in Dafny

A model of the ant farm simulation in its two forms: the 1991 X11 program
`xantfarm.c`, and its TypeScript port. A farm is a bounded grid of Air,
Dirt and Sand cells. Ants walk along the surfaces of the grid, dig sand and
dirt out, carry it, and drop it again. Loose sand falls straight down or
tips off ledges. Sand comes to rest and is compacted into dirt when the
column under it is deep enough. The C program saves the grid to a text
checkpoint and reads it back.

Every operation is a pure function of its inputs. Each `random()` or
`Math.random()` call becomes an explicit argument:

- a raw number, where the C source reduces it itself (`roll % 1000 < p`, `roll % n`);
- a boolean, for a TypeScript probability test;
- a natural number taken modulo n, for a uniform choice among n.

The two forms differ in load-bearing details. Each file's own version is
modelled and the two are not reconciled:

- digging below the surface: C `y >= surface`, TypeScript `y > surfaceLevel`;
- dropping above the surface: C `y < surface`, TypeScript `y <= surfaceLevel`;
- tipping: C needs three Air cells in a column, TypeScript needs two;
- loosening after a fall: C loosens around the cell the grain left, TypeScript around the cell it reached;
- dropping: C always drops, TypeScript drops only onto Air;
- a valid place: in C, the cell ahead must be Air (`legal_dir`); in TypeScript, the ant's own cell must be Air (`isValidLocation`).

Modules, by source file:

| module | models |
|---|---|
| `Wrappers` | `Option` and `Result` |
| `Grid` | the cell grid; bounded access, where an off-grid cell is neither Air nor Sand; the sand run below a cell; sand counting; the 5x5 loosening window |
| `Directions` | the C `dx`/`dy`, `foot_dir` and `back_dir` tables |
| `FallingSand` | C `loosen_one`, `loosen_neighbors`, `sand_fall` |
| `Ants` | C `moveants`, `move`, `turn`, `legal_dir`, `try_dig`, `drop`, `behave` |
| `Checkpoint` | the grid body of C `write_world` / `read_world` |
| `Points` | `Point.ts` |
| `Compass` | `getOppositeDirection` in `util.ts` |
| `Pose` | TypeScript (facing, angle) poses and their rotation, tied to the C tables |
| `Tiles` | the TypeScript element world with per-cell `active` flags |
| `AntSystem` | `moveAnts.ts` |
| `SandRules` | the per-grain rules shared by `sandFall.ts` and `gravitySystem.ts` |
| `SandFallSystem` | `sandFall.ts` |
| `GravitySystem` | `gravitySystem.ts` |
| `CreateWorld` | `createWorld.ts` |
| `Ecs` | `ecs.ts` |
| `Prototype` | the pure helpers of the first prototype in `World.tsx` |

`moveAnts.ts` and `gravitySystem.ts` import helpers whose definitions are
not part of this model: `getDelta`, `getRotatedAngle`, `getElementType`,
`loosenNeighbors`, `loosenOneSand`, `facingAngles` and
`swapElements`. They are defined here from the C program, as follows:

- a pose (facing, angle) is one of the eight C directions;
- rotating by +1 is `foot_dir`, and rotating by -1 is `back_dir`;
- `getDelta` is the C step of that direction;
- loosening covers the same 5x5 window as C `loosen_neighbors`, without its centre;
- `facingAngles` lists Left at 0, 90, 180 and 270 degrees, then Right in the same order;
- `swapElements` exchanges both the element and its `active` flag.

`getTimer` comes from `createAnt.ts`: the timing factor plus
`Math.random() % 3` minus one. The remainder of a number in [0, 1) is the
number itself, so the TypeScript timer is a fraction in [f - 1, f), unlike
C `behave`, whose timer is f - 1, f or f + 1. An ant only ever tests its
decremented timer against zero, so the TypeScript model keeps the timer as
the integer ceiling of that fraction (`AntSystem.TimerFiresAlike`); the
first prototype keeps the real number.

## Model

| member | source | states |
|---|---|---|
| `Grid.Get` | simulation/xantfarm.c:1322-1330 | a cell read gives a value exactly when the coordinate is on the grid, so off-grid cells behave as walls |
| `Grid.Swap` | src/systems/sandFall.ts:49-51 | swapping two cells exchanges their contents and leaves every other cell alone |
| `Grid.SandRun` | src/systems/sandFall.ts:7-15 | the depth d returned: cells y..y+d-1 of the column are Sand, and cell y+d is not (or is off the grid) |
| `Grid.SwapSandCount` | src/systems/sandFall.ts:49-51 | swapping two cells keeps the number of Sand cells on the grid |
| `Grid.SetSandCount` | simulation/xantfarm.c:1518-1521 | overwriting one cell changes the Sand count by exactly the difference between the old and new cell |
| `Grid.WindowOffset` | simulation/xantfarm.c:1372-1373 | each of the 25 steps of the loosening scan visits an offset within two cells of the centre on each axis |
| `Grid.WindowCovers` | simulation/xantfarm.c:1372-1373 | every offset within two cells on both axes is visited by some step of the 25-step scan |
| `Grid.ScanHitWindow` | simulation/xantfarm.c:1367-1378 | after the whole scan, the cells it loosens are exactly the in-bounds Sand cells within two cells of the centre, other than the centre |
| `Directions.StepsAreUnit` | simulation/xantfarm.c:312-313 | each direction's (dx, dy) is a unit step along exactly one axis |
| `Directions.FootDir` | simulation/xantfarm.c:314-316 | `foot_dir[d]` is perpendicular to d |
| `Directions.BackDir` | simulation/xantfarm.c:317-319 | `back_dir[d]` is perpendicular to d |
| `Directions.BackFootInverse` | simulation/xantfarm.c:314-319 | `back_dir[foot_dir[d]] == d` and `foot_dir[back_dir[d]] == d` for every direction, so the two tables are inverse permutations |
| `Directions.BackTwiceReverses` | simulation/xantfarm.c:317-319 | two back turns reverse the step, the about-face that `turn` tries second |
| `Directions.FootTwiceReverses` | simulation/xantfarm.c:314-316 | two turns toward the feet also reverse the step, and `foot_dir` never maps a direction to itself |
| `FallingSand.FirstFree` | simulation/xantfarm.c:1391-1399 | the first inactive slot, or the list length when every slot is active |
| `FallingSand.LoosenOne` | simulation/xantfarm.c:1381-1430 | the cell becomes tracked and no other cell does; nothing changes when an active slot already tracks it; an inactive slot is reused before the list grows; no cell is ever tracked twice; active slots are never moved |
| `FallingSand.LoosenFrom` | simulation/xantfarm.c:1372-1377 | after scan steps k..24, the tracked cells are the previous ones plus the Sand cells those steps hit; no duplicates appear |
| `FallingSand.LoosenNeighbors` | simulation/xantfarm.c:1367-1378 | the tracked cells become the previous ones plus exactly the in-bounds Sand cells within distance 2 of the centre, excluding the centre; active slots are kept, no duplicates appear, tracked cells stay on the grid |
| `FallingSand.DeactivateWithin` | simulation/xantfarm.c:1465 | deactivating a slot tracks no new cell |
| `FallingSand.Plan` | simulation/xantfarm.c:1462-1513 | bottom row iff y+1 is off the grid; a grain falls straight down iff the cell below is Air; it tips only into an in-bounds side column of three Air cells (which needs y+2 on the grid); when both sides are open, exactly one is chosen by the coin; otherwise it rests |
| `FallingSand.FallStep` | simulation/xantfarm.c:1456-1522 | a bottom-row grain is deactivated with no compaction; a resting grain is deactivated and compacts the bottom of its Sand run iff the run is at least `Compact` deep; a moving grain leaves Air, lands as Sand, keeps its slot and loosens around the cell it left |
| `FallingSand.FallPass` | simulation/xantfarm.c:1455-1525 | one pass keeps the grid's shape and keeps every tracked cell on the grid |
| `FallingSand.SandFall` | simulation/xantfarm.c:1451-1526 | the whole `sand_fall` keeps the grid's shape and keeps every tracked cell on the grid |
| `FallingSand.FallStepConservesSand` | simulation/xantfarm.c:1469-1510 | a grain that moves swaps with Air, so the number of Sand cells is unchanged |
| `FallingSand.Compaction` | simulation/xantfarm.c:1512-1522 | below a grain that comes to rest, when the unbroken Sand run beneath it is at least `Compact` (15) deep the bottom grain of the run becomes Dirt and the Sand count drops by exactly one; every other cell, and a shallower run, is left unchanged |
| `FallingSand.LoosenTracked` | simulation/xantfarm.c:1367-1378 | loosening keeps the list faithful: tracked cells on the grid, not Air, none twice |
| `FallingSand.MoveTracked` | simulation/xantfarm.c:1470-1479 | moving a tracked grain into Air keeps the list faithful |
| `FallingSand.FallStepTracked` | simulation/xantfarm.c:1456-1522 | evaluating one slot keeps the list faithful |
| `FallingSand.FallPassTracked` | simulation/xantfarm.c:1451-1526 | a whole pass keeps the list faithful |
| `FallingSand.IdlePassClears` | simulation/xantfarm.c:1524-1525 | a pass that meets no active slot leaves the grid alone and empties the list |
| `Ants.Behave` | simulation/xantfarm.c:1443-1448 | only behaviour and timer change, and the new timer is within one of the timing factor |
| `Ants.LegalFrom` | simulation/xantfarm.c:1283-1291 | the legal directions from d on, other than the current one, in increasing order, each exactly once |
| `Ants.LegalDirs` | simulation/xantfarm.c:1281-1291 | a direction is listed iff it differs from the current one and `legal_dir` holds of it: Air ahead on the grid, and the foot cell not on-grid Air |
| `Ants.Drop` | simulation/xantfarm.c:1433-1440 | the ant's cell becomes Sand whatever it held, that cell becomes tracked and no other does, and the ant wanders with a fresh timer |
| `Ants.TryDig` | simulation/xantfarm.c:1337-1364 | it reports success iff the target (ahead, or the foot cell) is on the grid and not Air; then the target becomes Air, the sand around it is loosened and the ant carries; otherwise nothing changes |
| `Ants.Turn` | simulation/xantfarm.c:1267-1311 | the position never changes; the back turn is taken if legal, else the about-face, else entry `pick % n` of the n legal directions other than the current one (so never the current one), with the farm unchanged; when none is legal, a carrier standing on Air or winning the 50/1000 exclusion roll drops first, and every trapped ant then takes direction `spin % 8` with the rest of it (and the farm) unchanged otherwise |
| `Ants.Move` | simulation/xantfarm.c:1210-1263 | off the grid the ant turns in place; against a solid cell it digs or turns; whenever its position changes the new cell is Air; on solid footing it steps straight ahead; over a gap it lands on the foot cell facing `foot_dir[d]`, after dropping its load in its old cell exactly when it carries, is above the surface and wins the 100/1000 convex roll, and with the ant and farm otherwise unchanged |
| `Ants.Act` | simulation/xantfarm.c:1167-1201 | the behaviour dispatch, one implication per branch: a wanderer digs down on its dig roll, else turns on its turn roll, else restarts its timer and moves; a carrier drops on its drop roll, else restarts its timer and moves; a panicking ant calms to wandering on its calm roll, else restarts its timer and moves; the farm stays well formed and a moved ant stands in Air |
| `Ants.Slip` | simulation/xantfarm.c:1151-1162 | with the footing gone the ant falls one row when the cell below is Air, else turns in place |
| `Ants.MoveAnt` | simulation/xantfarm.c:1141-1204 | a timer still positive after the decrement changes nothing else; otherwise the phase advances modulo 2 and the gravity check runs first: with Air under the feet the ant falls one row into Air or else is exactly `Turn`; with sound footing the result is exactly `Act`; a moved ant stands in Air |
| `Ants.MoveAnts` | simulation/xantfarm.c:1135-1206 | one ant per input ant, in order: ant i is the tick of `ants[i]` on `FarmAfter(ants, f, rolls, i)`, the farm the first i ticks left, and the final farm is the one all ticks leave; tracked cells stay on the grid |
| `Ants.FarmAfterShift` | simulation/xantfarm.c:1139-1206 | ticking the first ant and then k of the rest leaves the same farm as ticking the first k + 1 in order |
| `Ants.MoveAntsCountdown` | simulation/xantfarm.c:1141-1142 | in a whole round, an ant whose timer stays positive only counts down, whatever its predecessors did |
| `Checkpoint.CharCell` | simulation/xantfarm.c:1587-1596 | `A`, `D` and `S` decode to a cell, and a character decodes to a cell exactly when it is that cell's letter |
| `Checkpoint.EncodeFrom` | simulation/xantfarm.c:1624-1648 | a written row ends with a newline and holds only cell letters and newlines |
| `Checkpoint.EncodeRows` | simulation/xantfarm.c:1624-1649 | the written body holds only cell letters and newlines |
| `Checkpoint.ReadCell` | simulation/xantfarm.c:1576-1610 | reading a cell skips space, tab, CR and LF; it fails with end of input exactly when only blanks remain, and a success consumes input |
| `Checkpoint.BlankPrefix` | simulation/xantfarm.c:1597-1601 | the leading run of blanks: all blank, and followed by a non-blank character or the end |
| `Checkpoint.ReadCellFirstLetter` | simulation/xantfarm.c:1576-1610 | past the leading blanks, a cell letter reads as its cell with the input after it left over, and any other character fails naming that character |
| `Checkpoint.ReadCells` | simulation/xantfarm.c:1574-1611 | a row read returns exactly w cells, or an error |
| `Checkpoint.ReadRows` | simulation/xantfarm.c:1573-1611 | a body read returns exactly h rows of w cells each, or an error |
| `Checkpoint.Decode` | simulation/xantfarm.c:1573-1611 | a successful read is a well-formed grid of the requested width and height |
| `Checkpoint.SkipBlanks` | simulation/xantfarm.c:1598-1602 | blanks in front of a cell letter do not change what is read |
| `Checkpoint.ReadEncodedRow` | simulation/xantfarm.c:1626-1648 | reading back one written row recovers its cells |
| `Checkpoint.ReadCellsSkipsBlanks` | simulation/xantfarm.c:1598-1602 | blanks in front of a row do not change what is read |
| `Checkpoint.ReadEncodedRows` | simulation/xantfarm.c:1573-1649 | reading back the written rows recovers them |
| `Checkpoint.RoundTrip` | simulation/xantfarm.c:1573-1651 | decoding the written body of any well-formed grid, followed by anything, gives back the grid |
| `Checkpoint.DecodeSkipsBlanks` | simulation/xantfarm.c:1598-1602 | for a non-empty grid, blanks before the body do not change the grid read |
| `Checkpoint.EncodeFromLines` | simulation/xantfarm.c:1630-1634 | no written line holds more than 78 cell letters |
| `Checkpoint.EncodeRowsLines` | simulation/xantfarm.c:1624-1649 | no line of the written rows holds more than 78 cell letters |
| `Checkpoint.EncodeLines` | simulation/xantfarm.c:1626-1651 | no line of the written body holds more than 78 cell letters |
| `Points.AddComponents` | src/Point.ts:3-8 | `add(a, b)` is (a.x + b.x, a.y + b.y) |
| `Points.AddCommutes` | src/Point.ts:3-8 | `add` is commutative |
| `Points.AddAssociates` | src/Point.ts:3-8 | `add` is associative |
| `Points.OriginIsIdentity` | src/Point.ts:3-8 | (0, 0) is an identity of `add` |
| `Compass.Opposite` | src/util.ts:3-10 | defined on all four directions and never returns its input |
| `Compass.OppositePairs` | src/util.ts:4-9 | the pairs are exactly north-south and west-east |
| `Compass.OppositeInvolution` | src/util.ts:3-10 | the opposite of the opposite is the direction itself |
| `Pose.AngleIndex` | src/systems/moveAnts.ts:47 | each angle has a quarter-turn index below 4 |
| `Pose.AngleAt` | src/systems/moveAnts.ts:47 | the angle at an index inverts `AngleIndex` |
| `Pose.Rotate` | src/systems/moveAnts.ts:83-88 | the rotated angle's quarter-turn index is the old index minus the steps, modulo 4 |
| `Pose.DirPose` | simulation/xantfarm.c:82-89 | each C direction has a pose that maps back to it |
| `Pose.PoseDirBijective` | simulation/xantfarm.c:82-89 | poses and C directions are in one-to-one correspondence |
| `Pose.DeltaMatchesDir` | simulation/xantfarm.c:312-313 | a pose's step is the C step of its direction |
| `Pose.RotateMatchesTables` | simulation/xantfarm.c:314-319 | rotating +1 is `foot_dir` and rotating -1 is `back_dir` on the corresponding direction |
| `Pose.RotateTwiceBack` | src/systems/moveAnts.ts:88-91 | rotating by -2 is the C about-face `back_dir[back_dir[d]]` |
| `Pose.FacingAnglesComplete` | src/systems/moveAnts.ts:94-100 | every pose occurs in `facingAngles`, and none occurs twice |
| `Tiles.SetElement` | src/systems/moveAnts.ts:71 | writing an element changes that cell only and leaves the flags alone |
| `Tiles.SetActive` | src/systems/moveAnts.ts:125 | writing a flag changes that flag only and leaves the elements alone |
| `Tiles.SwapCells` | src/systems/gravitySystem.ts:74-76 | the element and its flag move together, and every other cell is kept |
| `Tiles.LoosenNeighbors` | src/systems/moveAnts.ts:72 | a flag becomes set exactly at the in-bounds Sand cells within distance 2 of the centre, the centre excluded; other flags and all elements are kept |
| `AntSystem.GetTimer` | src/createAnt.ts:14-20 | the number `getTimer` computes is the timing factor plus the draw (a `Math.random()` result in [0, 1), which `% 3` leaves alone) minus one; the integer timer is its ceiling, so the timing factor or, for a zero draw, one less |
| `AntSystem.TimerFiresAlike` | src/systems/moveAnts.ts:142-147 | after any number of decrements the integer timer is positive exactly when the real number `getTimer` gave would be, so the ant fires on the same tick |
| `AntSystem.Drop` | src/systems/moveAnts.ts:121-132 | on Air the cell becomes active Sand and the ant wanders with a fresh timer of 3 or 4; otherwise the ant and the world are unchanged |
| `AntSystem.Dig` | src/systems/moveAnts.ts:65-78 | when the target (ahead if forced, else the foot cell) is Dirt or Sand it becomes Air, the sand around it is loosened, and the ant carries with a fresh timer of 4 or 5 and location and pose unchanged; otherwise the ant and the world are unchanged |
| `AntSystem.ValidPosesFrom` | src/systems/moveAnts.ts:94-100 | the listed poses are exactly those of `facingAngles` from k on that differ from the ant's own and are valid where it stands |
| `AntSystem.ValidPoses` | src/systems/moveAnts.ts:94-100 | a pose is listed iff it differs from the ant's own and is valid where the ant stands |
| `AntSystem.Turn` | src/systems/moveAnts.ts:81-114 | the location never changes; the -1 rotation is taken if valid, else the -2 rotation, else entry `pick % n` of the n valid poses other than the current one (so never the current one), with the world unchanged; a trapped carrier standing on Air drops (Sand, active, wandering with a fresh timer) and then takes the pose `spin % 8` of `facingAngles`; any other trapped ant changes only its pose, to that same entry |
| `AntSystem.Move` | src/systems/moveAnts.ts:26-63 | off the grid the ant turns; against Dirt or Sand it digs only when wandering strictly below the surface and the cell is Sand or the draw allows, else turns; over a gap a carrier at or above the surface may drop, otherwise it moves to the foot point rotated +1; on solid footing it moves ahead with the pose unchanged |
| `AntSystem.MoveAnt` | src/systems/moveAnts.ts:141-181 | a timer still positive after the decrement changes nothing else; with Air under the feet the ant is returned with only its timer changed when the cell below is Air (falling is left to gravity), else it turns; with sound footing a wanderer digs down on `randomDig`, else turns on `randomTurn`, else wanders, and a carrier drops on `randomDrop`, else carries |
| `AntSystem.MoveAnts` | src/systems/moveAnts.ts:140-183 | one ant per input ant in the same order: ant i is the tick of `ants[i]` on `WorldAfter(ants, w, draws, i)`, the world the first i ticks left, and the final world is the one all ticks leave |
| `AntSystem.WorldAfterShift` | src/systems/moveAnts.ts:141-181 | ticking the first ant and then k of the rest leaves the same world as ticking the first k + 1 in order |
| `AntSystem.MoveAntsCountdown` | src/systems/moveAnts.ts:142-147 | in a whole round, an ant whose timer stays positive changes only in its timer, whatever its predecessors did |
| `AntSystem.DropIdempotent` | src/systems/moveAnts.ts:121-132 | a second drop right after a drop changes nothing |
| `AntSystem.DigIdempotent` | src/systems/moveAnts.ts:65-78 | a second dig of the same target right after a dig changes nothing |
| `SandRules.Target` | src/systems/sandFall.ts:21-39 | straight down iff the cell below is Air; a side only when both cells of its two-cell column are Air and the grain cannot go straight; a single coin picks when both sides qualify; the x change is -1, 0 or 1, and the y change is 1 iff some move was chosen |
| `SandRules.Compact` | src/systems/sandFall.ts:57-63 | with d Sand cells below the grain, cell (x, y+d) becomes Dirt iff d reaches the threshold, losing one grain of sand; otherwise the grid is untouched |
| `SandRules.CompactionCell` | src/systems/gravitySystem.ts:82-89 | the cell the rest step writes is the grain itself or a Sand cell below it in the same column |
| `SandRules.PlanAll` | src/systems/sandFall.ts:21-40 | one planned move per tracked grain, in order, each computed on the grid before any swap |
| `SandRules.Moving` | src/systems/sandFall.ts:43-46 | keeps exactly the plans whose row changes, and no more plans than there were |
| `SandRules.MovingSingle` | src/systems/sandFall.ts:43-46 | the filter keeps a single plan iff its row changes, and keeps nothing of an empty plan |
| `SandRules.MovingAppend` | src/systems/gravitySystem.ts:68-71 | filtering a concatenation is the concatenation of the filtered parts, so the filter keeps the plans in their order and keeps repeats |
| `SandRules.MovingDistinct` | src/systems/gravitySystem.ts:68-71 | when no two plans start from the same cell, neither do any two of the moving ones |
| `SandRules.SwapAll` | src/systems/sandFall.ts:49-51 | swapping each moving grain with its target, in order, keeps the Sand count |
| `SandFallSystem.Visit` | src/systems/sandFall.ts:67 | one scan step appends at most the cell it visits, only when that is an unlisted Sand cell other than the centre |
| `SandFallSystem.LoosenFrom` | src/systems/sandFall.ts:67 | appends only untracked in-bounds Sand cells of the window, keeps the list before them, and adds no duplicate |
| `SandFallSystem.LoosenNeighbors` | src/systems/sandFall.ts:67 | a cell is tracked afterwards iff it was tracked before or is an in-bounds Sand cell within distance 2 of the centre, other than the centre; no duplicate is added |
| `SandFallSystem.Settle` | src/systems/sandFall.ts:57-69 | resting grains compact and moved grains loosen around their new cell; the list before the call is kept and every appended cell lies near some moved grain's landing cell |
| `SandFallSystem.SandFall` | src/systems/sandFall.ts:18-70 | the list starts with exactly the new locations of the grains that moved, in order (resting grains are dropped), followed only by cells loosened near a landing cell; when every grain moves, the grid is the sequence of swaps and the Sand count is kept |
| `SandFallSystem.GapTargets` | src/systems/sandFall.ts:21-40 | on the 3x3 example, the two grains beside a one-cell gap both plan to tip into it |
| `SandFallSystem.GapSwaps` | src/systems/sandFall.ts:49-51 | on the 3x3 example, the second swap moves Sand back onto the first grain's landing cell |
| `SandFallSystem.TwoGrainsOneTarget` | src/systems/sandFall.ts:43-54 | on the 3x3 example, two grains are tracked at the same cell afterwards, and one of them has left Sand above it |
| `GravitySystem.ActiveSands` | src/systems/gravitySystem.ts:42 | lists exactly the Sand cells whose flag is set, each once, in row-major order |
| `GravitySystem.SwapFlags` | src/systems/gravitySystem.ts:73-76 | the active flags after the swaps, each move exchanging the flags of its two cells in order; a cell that no move starts or ends at keeps its flag |
| `GravitySystem.SwapFlagsKeeps` | src/systems/gravitySystem.ts:73-76 | when every move starts on an active Sand cell and ends on Air, and no two start at the same cell, a set flag that no move starts from is still set after the swaps |
| `GravitySystem.SwapFlagsLands` | src/systems/gravitySystem.ts:73-76 | under the same conditions, every move's landing cell has its flag set after the swaps, even when two grains land on the same cell |
| `GravitySystem.SwapCellsAll` | src/systems/gravitySystem.ts:73-76 | swapping each moving grain with its target moves the elements exactly as in `sandFall`, and the flags exactly as `SwapFlags` |
| `GravitySystem.Rest` | src/systems/gravitySystem.ts:79-89 | compaction as in `sandFall`, then the flag is cleared at (x, y+sandDepth), so a grain with Sand under it keeps its own flag |
| `GravitySystem.Settle` | src/systems/gravitySystem.ts:79-95 | the rest-or-loosen phase keeps the world well formed, and leaves the elements alone when every grain moved |
| `GravitySystem.SettleNear` | src/systems/gravitySystem.ts:79-95 | a flag the rest-or-loosen phase sets lies within two cells, on each axis, of where some plan from step k on landed; resting grains only clear flags |
| `GravitySystem.SettleLoosens` | src/systems/gravitySystem.ts:90-94 | when every plan from step k on moves, the phase leaves exactly the old flags plus the Sand cells within two cells of some landing, other than the landing cell itself |
| `GravitySystem.Pass` | src/systems/gravitySystem.ts:73-95 | swaps then settling for a given plan: every flag the swaps did not leave set lies near a landing; when every plan moves, the elements are the swaps and the flags are the swapped flags plus the loosened Sand cells |
| `GravitySystem.PlanSources` | src/systems/gravitySystem.ts:42-71 | every moving plan of the frame starts on an active Sand cell and ends on an Air cell of the grid before the swaps |
| `GravitySystem.LandingsActive` | src/systems/gravitySystem.ts:42-76 | after the swaps, the landing cell of every moving grain of the frame is active |
| `GravitySystem.PassLandings` | src/systems/gravitySystem.ts:73-95 | when every plan moves and the swaps left each landing cell active, those cells are still active after settling |
| `GravitySystem.SandGravity` | src/systems/gravitySystem.ts:40-96 | when every active grain moves, the elements are the swaps of the plan computed on the old grid, and the Sand count is kept; with no active grain nothing changes; every flag the swaps did not leave set lies near a landing; when every grain moves, the flags are the swapped ones plus the Sand cells the landings loosen, and every landing cell is active |
| `GravitySystem.FallAnt` | src/systems/gravitySystem.ts:26-36 | an ant moves iff it is active and both its foot cell and the cell below are Air, and then by exactly (0, +1) |
| `GravitySystem.AntGravity` | src/systems/gravitySystem.ts:21-37 | each ant falls on its own, with facing and angle unchanged, and only into Air |
| `GravitySystem.Gravity` | src/systems/gravitySystem.ts:98-101 | the sand pass runs first: the world keeps its shape, is untouched when no grain is active, and when every active grain moves its elements are the in-order swaps and its Sand count is kept; its flags are as `SandGravity` states; then each ant either stays exactly as it was or only moves one row down, doing so exactly when it is active and both its foot cell and the cell below are Air in the world the sand pass left, and it lands in Air there |
| `CreateWorld.Terrain` | src/createWorld.ts:26-30 | a grid of `height` rows of `width` cells, where a cell is Air iff its row is at most `surfaceLevel`, else Dirt, and never Sand |
| `CreateWorld.Recruit` | src/createWorld.ts:44-53 | a wandering ant at angle 0 on the surface row, facing left or right as drawn, with a fresh wandering timer of 3 or 4 |
| `CreateWorld.Create` | src/createWorld.ts:23-65 | width, height and surface row are stored unchanged, nothing is falling, and exactly `antCount` ants are created, each on a column of the grid |
| `CreateWorld.CreatedWorldHasNoSand` | src/createWorld.ts:26-30 | a fresh world holds no Sand |
| `CreateWorld.AntsStandOnDirt` | src/createWorld.ts:44-53 | with the surface row and the row below it on the grid, every new ant stands on Air with Dirt below |
| `Ecs.Empty` | src/ecs.ts:35-40 | a new container holds nothing and both counters start at 0 |
| `Ecs.Lookup` | src/ecs.ts:21-23 | a lookup finds a stored entity with that id, or reports that none is stored |
| `Ecs.Insert` | src/ecs.ts:42-44 | the table stays sorted by id; it grows by one iff the id was new |
| `Ecs.AddEntity` | src/ecs.ts:42-44 | the entity is stored under its id, overwriting any earlier entry, and every other id finds what it found before |
| `Ecs.AddSystem` | src/ecs.ts:46-48 | appends the system and leaves the rest alone |
| `Ecs.Update` | src/ecs.ts:50-53 | every system is called once, in registration order, each with the container's stored entities (so all with the same list), every one of which the table finds by its id |
| `Ecs.CreateEntity` | src/ecs.ts:55-58 | the entity takes the old `nextEntityId`, the counter grows by exactly 1, and the entity is not stored |
| `Ecs.CreateComponent` | src/ecs.ts:60-63 | the component takes the old `nextComponentId` and that counter grows by exactly 1, independently of entity ids |
| `Ecs.LookupInserted` | src/ecs.ts:42-44 | after storing, the entity's id finds it and every other id finds what it found before |
| `Ecs.LookupStored` | src/ecs.ts:51 | in the sorted table, a stored entity's id finds that entity |
| `Ecs.InsertIdempotent` | src/ecs.ts:42-44 | storing the same entity twice is the same as storing it once |
| `Ecs.CreateThenAdd` | src/ecs.ts:42-58 | creating then adding an entity grows the table by one and keeps all ids below the counter |
| `Ecs.AddSystemCalledLast` | src/ecs.ts:46-53 | a system added last is called last, after the earlier ones |
| `Prototype.Delta` | src/World.tsx:16-27 | one component is 4 or -4 and the other is 0, and the step is horizontal iff the heading is left or right |
| `Prototype.Turn` | src/World.tsx:58-71 | right and left swap, and any other heading is kept along with every other field |
| `Prototype.Move` | src/World.tsx:29-51 | out of the box the ant is turned in place; inside, x and y advance by the step with the other fields kept; an ant inside the box stays inside |
| `Prototype.Wander` | src/World.tsx:73-78 | the ant takes the fresh wandering timer `getTimer` gives for the draw, a number in [3, 4), keeps behaviour and phase, and steps four pixels along its heading when that stays in the box, otherwise stays put and turns; an ant inside the box stays inside it |
| `Prototype.MoveAnt` | src/World.tsx:90-128 | an ant whose decremented timer is positive, or which is not wandering, changes only in its timer |
| `Prototype.MoveAnts` | src/World.tsx:90-129 | one ant per input ant in the same order, and ants inside the box stay inside |
| `Prototype.RunStaysInWorld` | src/World.tsx:90-129 | ants inside the box stay inside it for any number of rounds |
| `Prototype.TurnTwice` | src/World.tsx:58-71 | turning twice restores the ant |

## Left out

- The X11 shell of the C program: display setup, colours, bitmaps, exposure and repainting, the `select` timing loop, the `stealth` fork, and argument parsing. All of it is I/O and rendering.
- `poke`, the mouse-button handler that is the only way into the panic behaviour. Panic itself is kept in `Ants`, because `moveants` dispatches on it.
- `ant_init` and `new_ant` in the C program, together with the floating-point surface row `world_h * (1.0 - DIRT_START_FRAC)`.
- The checkpoint's file handling and its header lines: the `xantfarm` magic line, and the `"%d %d"` size line with its size check. The body is modelled on given dimensions. A read that ends early or meets an unknown character returns an error instead of exiting.
- `FallingSand.SandFall`: the C loop re-reads the list length, so grains loosened during a pass are evaluated in the same pass. No bound on that is visible, so the model spends one coin draw per slot visited and stops when the draws run out. A pass longer than its draws is not modelled.
- `FallingSand.LoosenOne`: the growth of the C slot array (malloc/realloc doubling, and the out-of-memory exit) is not modelled. The list simply grows by one.
- The floating-point parts of `createWorld.ts`: the surface row from `dirtPercent` is an input, and the `Math.round(Math.random() * 1000) % width` column is an input below `width`.
- `CreateWorld.Recruit`: `createWorld.ts` calls `createAnt(x, y, 'wandering', facing, 0)`, but the `createAnt.ts` that is present takes four arguments and has no angle. The ant is built as the `Ant` of `moveAnts.ts`, at angle 0, with a `getTimer` wandering timer. Its `active` flag is an input, because the version of `createAnt` that sets it is not part of this model.
- `createAnt.ts` and `config.ts` themselves. The compaction depth and all probabilities are parameters or draws.
- `moveAnts.ts` throwing on an unknown behaviour: the TypeScript `Behavior` here has only `Wandering` and `Carrying`, so that branch cannot be reached.
- `AntSystem.Wander`, `AntSystem.Carry`: they only reset behaviour and timer and call `Move`, so they carry no contract of their own. `Move` and `MoveAnt` state their effect.
- `Prototype.Dig`, `Prototype.Drop`, `Prototype.Carry`: in `World.tsx` they return the ant unchanged, which is all they are modelled to do. The carrying branch of `MoveAnt` therefore returns the ant with only its timer changed, whatever `dropRoll` says.
- `console.log` calls in `World.tsx`, and the `World` React component with its tick hook and rendering. All React, Pixi and MUI views, `App.tsx`, and `index.tsx` are left out too.
- `GravitySystem.ActiveSands`: the element list of the TypeScript world is taken to be in row-major order. The code that builds that list is not part of this model.
- `SandFallSystem.SandFall`, `SandFallSystem.Settle`: the exact cells appended by the loosening of a moved grain are stated only as "near the landing cell" over a whole pass. The element grid is stated exactly only when every grain moves.
- `GravitySystem.SandGravity`, `GravitySystem.Gravity`, `GravitySystem.Pass`: when some grain rests, a flag the pass sets is stated only as near a landing, and the landing flags are not stated; the elements, the exact flags and the landing flags are stated only when every grain moves. When some grain rests, the compaction writes and the cleared flag are stated per grain by `SandRules.Compact` and `GravitySystem.Rest`, not for the whole pass.
- `GravitySystem.Settle`: its own contract states the shape and the elements only; its flags are stated by `GravitySystem.SettleNear` and `GravitySystem.SettleLoosens`.
- The `Map` keyed by point objects in `sandFall.ts` and `gravitySystem.ts`. Because the keys are objects, two entries with the same coordinates stay distinct, so the tracked set is a sequence processed in order.

Observations. These follow from the modelled code as written, and the model keeps each of them:

- C `try_dig` and `drop` never deactivate the slot of the cell they change (they only add loose cells, through `loosen_neighbors` and `loosen_one`). An ant that digs out a cell still tracked as loose leaves an active slot on Air, and the next `sand_fall` writes Sand below that slot. The same happens when compaction turns a tracked cell into Dirt. `FallingSand.Tracked` therefore holds across `sand_fall` passes (`FallingSand.FallPassTracked`), but not across a dig.
- In `sandFall.ts`, two grains can tip into the same gap in one frame. The second swap puts Sand back where the first grain landed and leaves the list tracking that cell twice (`SandFallSystem.TwoGrainsOneTarget`).
- `gravitySystem.ts` clears the flag at (x, y+sandDepth). For a resting grain with Sand under it, that cell is the bottom of the run, not the grain itself, so the grain stays active and is re-evaluated every frame (`GravitySystem.Rest`).

=== FILE: ants.dfy ===
/**
 * The ant behaviour state machine of the 1991 C program (`moveants`, `move`,
 * `turn`, `legal_dir`, `try_dig`, `drop`, `behave`). One ant's decision reads
 * and writes the shared farm: the grid, the falling-sand list and the
 * surface row. Every call of `random()` is an explicit argument; a test
 * "with probability p/1000" reads `roll % 1000 < p`, and a uniform choice
 * among n reads `roll % n`, exactly as the C source does.
 */
module Ants {
  import opened Grid
  import opened Directions
  import opened FallingSand

  // Probabilities times 1000.
  const RandomDigProb: nat := 3
  const RandomDropProb: nat := 3
  const RandomTurnProb: nat := 5
  const ConcaveBelowDirtDigProb: nat := 100
  const ConvexAboveDropProb: nat := 100
  const CalmProb: nat := 10
  const SandExclusionProb: nat := 50

  // Timing factors of the behaviours.
  const TWandering: int := 4
  const TCarrying: int := 5
  const TPanic: int := 1

  datatype Behavior = Wandering | Carrying | Panic

  datatype Ant = Ant(x: int, y: int, dir: Dir, behavior: Behavior, timer: int, phase: nat)

  datatype Farm = Farm(world: Grid<Cell>, sands: seq<Slot>, surface: int)

  datatype Step = Step(ant: Ant, farm: Farm)

  /** The `random()` results one decision may consult, one per call site. */
  datatype Rolls = Rolls(
    dig: nat, turn: nat, drop: nat, calm: nat,
    concave: nat, convex: nat, exclusion: nat,
    pick: nat, spin: nat, jitter: nat, rejitter: nat)

  predicate Chance(roll: nat, prob: nat) {
    roll % 1000 < prob
  }

  /** A well-formed grid whose falling-sand list only tracks cells on it. */
  ghost predicate Good(f: Farm) {
    f.world.Valid() && ActiveWithin(f.world, f.sands)
  }

  predicate OnGrid(a: Ant, f: Farm) {
    f.world.InBounds(a.x, a.y)
  }

  /** Both farms have grids of the same size and the same surface row. */
  predicate SameFrame(f: Farm, g: Farm) {
    SameShape(f.world, g.world) && f.surface == g.surface
  }

  /** Switches behaviour and restarts the timer at `t` give or take one. */
  function Behave(a: Ant, b: Behavior, t: int, roll: nat): (r: Ant)
    ensures r == a.(behavior := b, timer := r.timer)
    ensures t - 1 <= r.timer <= t + 1
  {
    a.(behavior := b, timer := t + roll % 3 - 1)
  }

  /**
   * Direction d is legal when the cell ahead is in-bounds Air and the cell
   * the feet would then rest on is not (a wall off the grid counts as solid).
   */
  predicate LegalDir(a: Ant, f: Farm, d: Dir)
    requires f.world.Valid()
  {
    && IsAir(f.world, a.x + DX(d), a.y + DY(d))
    && !IsAir(f.world, a.x + DX(FootDir(d)), a.y + DY(FootDir(d)))
  }

  /** The legal directions from d on, other than the current one, in increasing order. */
  function LegalFrom(a: Ant, f: Farm, d: nat): (r: seq<Dir>)
    requires f.world.Valid() && d <= 8
    ensures forall e: Dir :: e in r <==> d <= e && e != a.dir && LegalDir(a, f, e)
    ensures forall i, j | 0 <= i < j < |r| :: r[i] < r[j]
    ensures forall i | 0 <= i < |r| :: d <= r[i]
    decreases 8 - d
  {
    if d == 8 then []
    else if d != a.dir && LegalDir(a, f, d) then [d as Dir] + LegalFrom(a, f, d + 1)
    else LegalFrom(a, f, d + 1)
  }

  function LegalDirs(a: Ant, f: Farm): (r: seq<Dir>)
    requires f.world.Valid()
    ensures forall e: Dir :: e in r <==> e != a.dir && LegalDir(a, f, e)
    ensures forall i, j | 0 <= i < j < |r| :: r[i] < r[j]
  {
    LegalFrom(a, f, 0)
  }

  /**
   * Leaves Sand in the ant's own cell, whatever was there, marks it loose and
   * goes back to wandering.
   */
  function Drop(a: Ant, f: Farm, jitter: nat): (r: Step)
    requires f.world.Valid() && OnGrid(a, f)
    ensures r.farm.world == f.world.Set(a.x, a.y, Sand) && r.farm.surface == f.surface
    ensures ActiveAt(r.farm.sands, a.x, a.y) && KeepsActive(f.sands, r.farm.sands)
    ensures forall p, q :: ActiveAt(r.farm.sands, p, q) <==> ActiveAt(f.sands, p, q) || (p == a.x && q == a.y)
    ensures r.ant == Behave(a, Wandering, TWandering, jitter)
  {
    Step(Behave(a, Wandering, TWandering, jitter),
         Farm(f.world.Set(a.x, a.y, Sand), LoosenOne(f.sands, a.x, a.y), f.surface))
  }

  /** The cell `try_dig` aims at: straight ahead, or under the feet. */
  function DigTarget(a: Ant, forward: bool): (int, int) {
    var d := if forward then a.dir else FootDir(a.dir);
    (a.x + DX(d), a.y + DY(d))
  }

  /**
   * Digs out the target cell when it is on the grid and solid: it becomes
   * Air, the sand around it is loosened and the ant starts carrying. The
   * flag reports whether anything was dug; when not, nothing changes.
   */
  function TryDig(a: Ant, f: Farm, forward: bool, jitter: nat): (r: (Step, bool))
    requires f.world.Valid()
    ensures var (tx, ty) := DigTarget(a, forward);
      r.1 <==> f.world.InBounds(tx, ty) && f.world.At(tx, ty) != Air
    ensures !r.1 ==> r.0 == Step(a, f)
    ensures r.1 ==> var (tx, ty) := DigTarget(a, forward);
      && r.0.farm.world == f.world.Set(tx, ty, Air)
      && r.0.farm.surface == f.surface
      && r.0.ant == Behave(a, Carrying, TCarrying, jitter)
      && forall p, q :: ActiveAt(r.0.farm.sands, p, q) <==> ActiveAt(f.sands, p, q) || Loosenable(r.0.farm.world, tx, ty, p, q)
    ensures Good(f) ==> Good(r.0.farm)
  {
    var (tx, ty) := DigTarget(a, forward);
    if f.world.InBounds(tx, ty) && f.world.At(tx, ty) != Air then
      var w := f.world.Set(tx, ty, Air);
      (Step(Behave(a, Carrying, TCarrying, jitter), Farm(w, LoosenNeighbors(w, f.sands, tx, ty), f.surface)), true)
    else
      (Step(a, f), false)
  }

  /** The ant is boxed in: neither back turn is legal and no other direction is either. */
  predicate Trapped(a: Ant, f: Farm)
    requires f.world.Valid()
  {
    !LegalDir(a, f, BackDir(a.dir)) && !LegalDir(a, f, BackDir(BackDir(a.dir))) && |LegalDirs(a, f)| == 0
  }

  /**
   * Turns in place: toward the back if that is legal, else about-face, else
   * a random legal direction other than the current one. A trapped ant drops
   * what it carries (onto Air, or by a 5% chance onto anything) and then
   * faces a random direction, legal or not.
   */
  function Turn(a: Ant, f: Farm, r: Rolls): (s: Step)
    requires f.world.Valid() && OnGrid(a, f)
    ensures s.ant.phase == a.phase
    ensures s.ant.x == a.x && s.ant.y == a.y
    ensures LegalDir(a, f, BackDir(a.dir)) ==> s == Step(a.(dir := BackDir(a.dir)), f)
    ensures !LegalDir(a, f, BackDir(a.dir)) && LegalDir(a, f, BackDir(BackDir(a.dir))) ==>
      s == Step(a.(dir := BackDir(BackDir(a.dir))), f)
    ensures (exists e: Dir :: e != a.dir && LegalDir(a, f, e)) ==> s.farm == f && LegalDir(a, f, s.ant.dir)
    ensures !LegalDir(a, f, BackDir(a.dir)) && !LegalDir(a, f, BackDir(BackDir(a.dir))) && |LegalDirs(a, f)| > 0 ==>
      && s == Step(a.(dir := LegalDirs(a, f)[r.pick % |LegalDirs(a, f)|]), f)
      && s.ant.dir != a.dir
    ensures !Trapped(a, f) ==> s.ant == a.(dir := s.ant.dir)
    ensures s.farm != f ==> Trapped(a, f) && a.behavior == Carrying
    ensures Trapped(a, f) && a.behavior == Carrying && (IsAir(f.world, a.x, a.y) || Chance(r.exclusion, SandExclusionProb)) ==>
      s == Step(Drop(a, f, r.rejitter).ant.(dir := r.spin % 8), Drop(a, f, r.rejitter).farm)
    ensures Trapped(a, f) && !(a.behavior == Carrying && (IsAir(f.world, a.x, a.y) || Chance(r.exclusion, SandExclusionProb))) ==>
      s == Step(a.(dir := r.spin % 8), f)
    ensures s.farm.world.Valid() && SameFrame(s.farm, f)
    ensures Good(f) ==> Good(s.farm)
  {
    var d := BackDir(a.dir);
    var d2 := BackDir(d);
    if LegalDir(a, f, d) then Step(a.(dir := d), f)
    else if LegalDir(a, f, d2) then Step(a.(dir := d2), f)
    else
      var ok := LegalDirs(a, f);
      if |ok| != 0 then
        assert ok[r.pick % |ok|] in ok;
        Step(a.(dir := ok[r.pick % |ok|]), f)
      else
        assert ok == [];
        var t := if a.behavior == Carrying && (IsAir(f.world, a.x, a.y) || Chance(r.exclusion, SandExclusionProb))
                 then Drop(a, f, r.rejitter) else Step(a, f);
        Step(t.ant.(dir := r.spin % 8), t.farm)
  }

  /** The cell straight ahead of the ant. */
  function Ahead(a: Ant): (int, int) {
    (a.x + DX(a.dir), a.y + DY(a.dir))
  }

  /** The cell under the ant's feet. */
  function Foot(a: Ant): (int, int) {
    (a.x + DX(FootDir(a.dir)), a.y + DY(FootDir(a.dir)))
  }

  /** A wandering ant at or below the surface digs into sand always, into dirt by chance. */
  predicate WantsDig(a: Ant, f: Farm, nx: int, ny: int, concave: nat)
    requires f.world.Valid() && f.world.InBounds(nx, ny)
  {
    a.behavior == Wandering && a.y >= f.surface
    && (f.world.At(nx, ny) == Sand || Chance(concave, ConcaveBelowDirtDigProb))
  }

  /**
   * One step forward. At the edge, or against a solid cell the ant will not
   * dig, it turns instead. Over a gap it steps diagonally around the corner
   * into the cell under its would-be feet and turns toward them, perhaps
   * dropping its load first when above the surface.
   */
  function Move(a: Ant, f: Farm, r: Rolls): (s: Step)
    requires f.world.Valid() && OnGrid(a, f)
    ensures s.ant.phase == a.phase
    ensures s.farm.world.Valid() && SameFrame(s.farm, f) && OnGrid(s.ant, s.farm)
    ensures Good(f) ==> Good(s.farm)
    ensures var (nx, ny) := Ahead(a);
      !f.world.InBounds(nx, ny) ==> s == Turn(a, f, r) && s.ant.x == a.x && s.ant.y == a.y
    ensures var (nx, ny) := Ahead(a);
      f.world.InBounds(nx, ny) && f.world.At(nx, ny) != Air ==>
        s == (if WantsDig(a, f, nx, ny, r.concave) then TryDig(a, f, true, r.rejitter).0 else Turn(a, f, r))
    ensures s.ant.x != a.x || s.ant.y != a.y ==> IsAir(s.farm.world, s.ant.x, s.ant.y)
    ensures var (nx, ny) := Ahead(a);
      IsAir(f.world, nx, ny) && !IsAir(f.world, nx + DX(FootDir(a.dir)), ny + DY(FootDir(a.dir))) ==>
        s == Step(a.(x := nx, y := ny), f)
    ensures var (nx, ny) := Ahead(a);
      var (fx, fy) := (nx + DX(FootDir(a.dir)), ny + DY(FootDir(a.dir)));
      IsAir(f.world, nx, ny) && IsAir(f.world, fx, fy) ==>
        && s.ant.x == fx && s.ant.y == fy && s.ant.dir == FootDir(a.dir)
        && var drops := a.behavior == Carrying && a.y < f.surface && Chance(r.convex, ConvexAboveDropProb);
           && (drops ==> s == Step(Drop(a, f, r.rejitter).ant.(x := fx, y := fy, dir := FootDir(a.dir)), Drop(a, f, r.rejitter).farm))
           && (!drops ==> s == Step(a.(x := fx, y := fy, dir := FootDir(a.dir)), f))
  {
    var (nx, ny) := Ahead(a);
    if !f.world.InBounds(nx, ny) then Turn(a, f, r)
    else if f.world.At(nx, ny) != Air then
      if WantsDig(a, f, nx, ny, r.concave) then TryDig(a, f, true, r.rejitter).0 else Turn(a, f, r)
    else
      var (fx, fy) := (nx + DX(FootDir(a.dir)), ny + DY(FootDir(a.dir)));
      if IsAir(f.world, fx, fy) then
        var t := if a.behavior == Carrying && a.y < f.surface && Chance(r.convex, ConvexAboveDropProb)
                 then Drop(a, f, r.rejitter) else Step(a, f);
        // A drop writes only the ant's own cell, which is not the diagonal target.
        assert (fx, fy) != (a.x, a.y) by { StepsAreUnit(a.dir); StepsAreUnit(FootDir(a.dir)); }
        Step(t.ant.(x := fx, y := fy, dir := FootDir(a.dir)), t.farm)
      else
        Step(a.(x := nx, y := ny), f)
  }

  /**
   * What an ant whose timer ran out does when its footing is sound: a
   * wanderer may dig down or turn, else walks on; a carrier may drop, else
   * walks on; a panicking ant may calm down, else runs on. Walking restarts
   * the behaviour's timer first.
   */
  function Act(b: Ant, f: Farm, r: Rolls): (s: Step)
    requires f.world.Valid() && OnGrid(b, f)
    ensures s.ant.phase == b.phase
    ensures s.farm.world.Valid() && SameFrame(s.farm, f) && OnGrid(s.ant, s.farm)
    ensures Good(f) ==> Good(s.farm)
    ensures s.ant.x != b.x || s.ant.y != b.y ==> IsAir(s.farm.world, s.ant.x, s.ant.y)
    ensures b.behavior == Panic && Chance(r.calm, CalmProb) ==> s == Step(Behave(b, Wandering, TWandering, r.jitter), f)
    ensures b.behavior == Carrying && Chance(r.drop, RandomDropProb) ==> s == Drop(b, f, r.jitter)
    ensures b.behavior == Wandering && Chance(r.dig, RandomDigProb) ==> s == TryDig(b, f, false, r.jitter).0
    ensures b.behavior == Wandering && !Chance(r.dig, RandomDigProb) && Chance(r.turn, RandomTurnProb) ==> s == Turn(b, f, r)
    ensures b.behavior == Wandering && !Chance(r.dig, RandomDigProb) && !Chance(r.turn, RandomTurnProb) ==>
      s == Move(Behave(b, Wandering, TWandering, r.jitter), f, r)
    ensures b.behavior == Carrying && !Chance(r.drop, RandomDropProb) ==> s == Move(Behave(b, Carrying, TCarrying, r.jitter), f, r)
    ensures b.behavior == Panic && !Chance(r.calm, CalmProb) ==> s == Move(Behave(b, Panic, TPanic, r.jitter), f, r)
  {
    match b.behavior
    case Wandering =>
      if Chance(r.dig, RandomDigProb) then TryDig(b, f, false, r.jitter).0
      else if Chance(r.turn, RandomTurnProb) then Turn(b, f, r)
      else Move(Behave(b, Wandering, TWandering, r.jitter), f, r)
    case Carrying =>
      if Chance(r.drop, RandomDropProb) then Drop(b, f, r.jitter)
      else Move(Behave(b, Carrying, TCarrying, r.jitter), f, r)
    case Panic =>
      if Chance(r.calm, CalmProb) then Step(Behave(b, Wandering, TWandering, r.jitter), f)
      else Move(Behave(b, Panic, TPanic, r.jitter), f, r)
  }

  /** The ground under an ant's feet has gone: it falls one row if it can, else turns. */
  function Slip(b: Ant, f: Farm, r: Rolls): (s: Step)
    requires f.world.Valid() && OnGrid(b, f)
    ensures s.ant.phase == b.phase
    ensures s.farm.world.Valid() && SameFrame(s.farm, f) && OnGrid(s.ant, s.farm)
    ensures Good(f) ==> Good(s.farm)
    ensures IsAir(f.world, b.x, b.y + 1) ==> s == Step(b.(y := b.y + 1), f)
    ensures !IsAir(f.world, b.x, b.y + 1) ==> s == Turn(b, f, r) && s.ant.x == b.x && s.ant.y == b.y
    ensures s.ant.x != b.x || s.ant.y != b.y ==> IsAir(s.farm.world, s.ant.x, s.ant.y)
  {
    if IsAir(f.world, b.x, b.y + 1) then Step(b.(y := b.y + 1), f) else Turn(b, f, r)
  }

  /**
   * One tick for one ant. The timer counts down; when it runs out the ant
   * either falls (its footing is gone and the cell below is Air), turns (its
   * footing is gone but it cannot fall), or acts on its behaviour.
   */
  function MoveAnt(a: Ant, f: Farm, r: Rolls): (s: Step)
    requires f.world.Valid() && OnGrid(a, f)
    ensures s.farm.world.Valid() && SameFrame(s.farm, f) && OnGrid(s.ant, s.farm)
    ensures Good(f) ==> Good(s.farm)
    ensures a.timer - 1 > 0 ==> s == Step(a.(timer := a.timer - 1), f)
    ensures a.timer - 1 <= 0 ==> s.ant.phase == (a.phase + 1) % 2
    ensures a.timer - 1 <= 0 && IsAir(f.world, Foot(a).0, Foot(a).1) ==>
      if IsAir(f.world, a.x, a.y + 1)
      then s == Step(a.(y := a.y + 1, timer := a.timer - 1, phase := (a.phase + 1) % 2), f)
      else s.ant.x == a.x && s.ant.y == a.y && s == Turn(a.(timer := a.timer - 1, phase := (a.phase + 1) % 2), f, r)
    ensures a.timer - 1 <= 0 && !IsAir(f.world, Foot(a).0, Foot(a).1) ==>
      s == Act(a.(timer := a.timer - 1, phase := (a.phase + 1) % 2), f, r)
    ensures s.ant.x != a.x || s.ant.y != a.y ==> IsAir(s.farm.world, s.ant.x, s.ant.y)
  {
    var t := a.timer - 1;
    if t > 0 then Step(a.(timer := t), f)
    else
      var b := a.(timer := t, phase := (a.phase + 1) % 2);
      if IsAir(f.world, Foot(a).0, Foot(a).1) then Slip(b, f, r) else Act(b, f, r)
  }

  predicate AllOnGrid(ants: seq<Ant>, f: Farm) {
    forall i | 0 <= i < |ants| :: OnGrid(ants[i], f)
  }

  /** The farm after the first k ants of the list have ticked, in order. */
  function FarmAfter(ants: seq<Ant>, f: Farm, rolls: seq<Rolls>, k: nat): (r: Farm)
    requires f.world.Valid() && AllOnGrid(ants, f) && |rolls| == |ants| && k <= |ants|
    ensures r.world.Valid() && SameFrame(r, f) && AllOnGrid(ants, r)
    decreases k
  {
    if k == 0 then f
    else
      var g := FarmAfter(ants, f, rolls, k - 1);
      MoveAnt(ants[k - 1], g, rolls[k - 1]).farm
  }

  /** Ticking the first ant, then the first k of the rest, is ticking the first k + 1. */
  lemma {:induction false} FarmAfterShift(ants: seq<Ant>, f: Farm, rolls: seq<Rolls>, k: nat)
    requires f.world.Valid() && AllOnGrid(ants, f) && |rolls| == |ants| && 0 < |ants| && k < |ants|
    ensures AllOnGrid(ants[1..], MoveAnt(ants[0], f, rolls[0]).farm)
    ensures FarmAfter(ants, f, rolls, k + 1) == FarmAfter(ants[1..], MoveAnt(ants[0], f, rolls[0]).farm, rolls[1..], k)
    decreases k
  {
    var g := MoveAnt(ants[0], f, rolls[0]).farm;
    assert forall i | 1 <= i < |ants| :: ants[1..][i - 1] == ants[i];
    if k > 0 {
      FarmAfterShift(ants, f, rolls, k - 1);
      assert ants[1..][k - 1] == ants[k] && rolls[1..][k - 1] == rolls[k];
    }
  }

  /** The i-th ant after its tick, taken on the farm the ants before it left. */
  function Ticked(ants: seq<Ant>, f: Farm, rolls: seq<Rolls>, i: nat): Ant
    requires f.world.Valid() && AllOnGrid(ants, f) && |rolls| == |ants| && i < |ants|
  {
    MoveAnt(ants[i], FarmAfter(ants, f, rolls, i), rolls[i]).ant
  }

  lemma TickedShift(ants: seq<Ant>, f: Farm, rolls: seq<Rolls>, i: nat)
    requires f.world.Valid() && AllOnGrid(ants, f) && |rolls| == |ants| && 0 < i < |ants|
    ensures AllOnGrid(ants[1..], MoveAnt(ants[0], f, rolls[0]).farm)
    ensures Ticked(ants, f, rolls, i) == Ticked(ants[1..], MoveAnt(ants[0], f, rolls[0]).farm, rolls[1..], i - 1)
  {
    FarmAfterShift(ants, f, rolls, i - 1);
    var g1 := FarmAfter(ants, f, rolls, i);
    var g2 := FarmAfter(ants[1..], MoveAnt(ants[0], f, rolls[0]).farm, rolls[1..], i - 1);
    assert g1 == g2;
    assert ants[1..][i - 1] == ants[i] && rolls[1..][i - 1] == rolls[i];
  }

  /**
   * One tick for every ant, in order, each seeing the farm its predecessors
   * left behind.
   */
  function MoveAnts(ants: seq<Ant>, f: Farm, rolls: seq<Rolls>): (r: (seq<Ant>, Farm))
    requires f.world.Valid() && AllOnGrid(ants, f) && |rolls| == |ants|
    ensures |r.0| == |ants| && r.1.world.Valid() && SameFrame(r.1, f) && AllOnGrid(r.0, r.1)
    ensures Good(f) ==> Good(r.1)
    ensures forall i | 0 <= i < |ants| :: r.0[i] == Ticked(ants, f, rolls, i)
    ensures r.1 == FarmAfter(ants, f, rolls, |ants|)
    decreases |ants|
  {
    if |ants| == 0 then ([], f)
    else
      var s := MoveAnt(ants[0], f, rolls[0]);
      assert forall i | 1 <= i < |ants| :: ants[1..][i - 1] == ants[i];
      var rest := MoveAnts(ants[1..], s.farm, rolls[1..]);
      var r := ([s.ant] + rest.0, rest.1);
      assert r.1 == FarmAfter(ants, f, rolls, |ants|) by {
        FarmAfterShift(ants, f, rolls, |ants| - 1);
      }
      assert forall i | 0 <= i < |ants| :: r.0[i] == Ticked(ants, f, rolls, i) by {
        forall i | 0 <= i < |ants|
          ensures r.0[i] == Ticked(ants, f, rolls, i)
        {
          if i > 0 {
            TickedShift(ants, f, rolls, i);
            assert r.0[i] == rest.0[i - 1];
          }
        }
      }
      r
  }

  /** An ant whose timer is still counting down only counts down, whatever the ants before it did. */
  lemma MoveAntsCountdown(ants: seq<Ant>, f: Farm, rolls: seq<Rolls>)
    requires f.world.Valid() && AllOnGrid(ants, f) && |rolls| == |ants|
    ensures var r := MoveAnts(ants, f, rolls);
      forall i | 0 <= i < |ants| && ants[i].timer > 1 :: r.0[i] == ants[i].(timer := ants[i].timer - 1)
  {
    var r := MoveAnts(ants, f, rolls);
    forall i | 0 <= i < |ants| && ants[i].timer > 1
      ensures r.0[i] == ants[i].(timer := ants[i].timer - 1)
    {
      assert r.0[i] == Ticked(ants, f, rolls, i);
    }
  }
}

=== FILE: checkpoint.dfy ===
/**
 * The body of the C program's checkpoint file: one letter per cell, `A`
 * for Air, `D` for Dirt and `S` for Sand, row by row. The writer starts a
 * new line after every 78 letters and ends each row with a newline; the
 * reader takes exactly width times height letters, skipping blanks, tabs,
 * carriage returns and newlines anywhere, and fails on end of input or on
 * any other character.
 */
module Checkpoint {
  import opened Wrappers
  import opened Grid

  /** The writer's line limit, in cell letters. */
  const LineWidth: nat := 78

  function CellChar(c: Cell): char {
    match c
    case Air => 'A'
    case Dirt => 'D'
    case Sand => 'S'
  }

  predicate IsBlank(ch: char) {
    ch == ' ' || ch == '\t' || ch == '\n' || ch == '\r'
  }

  predicate AllBlank(s: string) {
    forall i | 0 <= i < |s| :: IsBlank(s[i])
  }

  /** The cell a letter stands for, if any. */
  function CharCell(ch: char): (r: Option<Cell>)
    ensures r.Some? <==> ch == 'A' || ch == 'D' || ch == 'S'
    ensures forall c: Cell :: r == Some(c) <==> ch == CellChar(c)
  {
    if ch == 'A' then Some(Air)
    else if ch == 'D' then Some(Dirt)
    else if ch == 'S' then Some(Sand)
    else None
  }

  /**
   * The rest of one row, written with `c` letters already on the current
   * line: a newline first when that line is full, then the letter, and a
   * final newline once the row is done.
   */
  function EncodeFrom(row: seq<Cell>, c: nat): (s: string)
    ensures |s| > 0 && s[|s| - 1] == '\n'
    ensures forall i | 0 <= i < |s| :: s[i] == '\n' || CharCell(s[i]).Some?
    decreases |row|
  {
    if |row| == 0 then "\n"
    else
      var (sep, c') := if c >= LineWidth then ("\n", 0) else ("", c);
      sep + [CellChar(row[0])] + EncodeFrom(row[1..], c' + 1)
  }

  function EncodeRow(row: seq<Cell>): string {
    EncodeFrom(row, 0)
  }

  function EncodeRows(rows: seq<seq<Cell>>): (s: string)
    ensures forall i | 0 <= i < |s| :: s[i] == '\n' || CharCell(s[i]).Some?
    decreases |rows|
  {
    if |rows| == 0 then "" else EncodeRow(rows[0]) + EncodeRows(rows[1..])
  }

  /** The checkpoint body of a grid. */
  function Encode(g: Grid<Cell>): string {
    EncodeRows(g.rows)
  }

  datatype ReadError = Eof | UnknownChar(ch: char)

  /** The length of the run of blanks that starts the input. */
  function BlankPrefix(s: string): (k: nat)
    ensures k <= |s| && AllBlank(s[..k])
    ensures k < |s| ==> !IsBlank(s[k])
    decreases |s|
  {
    if |s| == 0 || !IsBlank(s[0]) then 0
    else
      var k := BlankPrefix(s[1..]);
      assert s[..k + 1] == [s[0]] + s[1..][..k];
      k + 1
  }

  /** Skips blanks and reads one cell letter, returning the rest of the input. */
  function ReadCell(s: string): (r: Result<(Cell, string), ReadError>)
    ensures r.Ok? ==> |r.value.1| < |s|
    ensures r == Err(Eof) <==> AllBlank(s)
    decreases |s|
  {
    if |s| == 0 then Err(Eof)
    else if IsBlank(s[0]) then ReadCell(s[1..])
    else match CharCell(s[0])
      case Some(c) => Ok((c, s[1..]))
      case None => Err(UnknownChar(s[0]))
  }

  /**
   * What `ReadCell` reads once the blanks are behind it: the cell of the
   * first other character, with the input after it left over, or the error
   * naming that character when it is not a cell letter.
   */
  lemma {:induction false} ReadCellFirstLetter(s: string)
    ensures var k := BlankPrefix(s);
      k < |s| && CharCell(s[k]).Some? ==> ReadCell(s) == Ok((CharCell(s[k]).value, s[k + 1..]))
    ensures var k := BlankPrefix(s);
      k < |s| && CharCell(s[k]).None? ==> ReadCell(s) == Err(UnknownChar(s[k]))
    decreases |s|
  {
    if |s| > 0 && IsBlank(s[0]) {
      ReadCellFirstLetter(s[1..]);
      var k := BlankPrefix(s[1..]);
      assert BlankPrefix(s) == k + 1;
      if k < |s[1..]| {
        assert s[1..][k] == s[k + 1];
        assert s[1..][k + 1..] == s[k + 2..];
      }
    }
  }

  function ReadCells(s: string, n: nat): (r: Result<(seq<Cell>, string), ReadError>)
    ensures r.Ok? ==> |r.value.0| == n
    decreases n
  {
    if n == 0 then Ok(([], s))
    else match ReadCell(s)
      case Err(e) => Err(e)
      case Ok((c, rest)) =>
        match ReadCells(rest, n - 1)
        case Err(e) => Err(e)
        case Ok((cs, rest')) => Ok(([c] + cs, rest'))
  }

  function ReadRows(s: string, w: nat, h: nat): (r: Result<(seq<seq<Cell>>, string), ReadError>)
    ensures r.Ok? ==> |r.value.0| == h && forall y | 0 <= y < h :: |r.value.0[y]| == w
    decreases h
  {
    if h == 0 then Ok(([], s))
    else match ReadCells(s, w)
      case Err(e) => Err(e)
      case Ok((row, rest)) =>
        match ReadRows(rest, w, h - 1)
        case Err(e) => Err(e)
        case Ok((rows, rest')) => Ok(([row] + rows, rest'))
  }

  /**
   * Reads a `w` by `h` grid; whatever follows the last cell letter is
   * ignored.
   */
  function Decode(s: string, w: nat, h: nat): (r: Result<Grid<Cell>, ReadError>)
    ensures r.Ok? ==> r.value.Valid() && r.value.width == w && r.value.height == h
  {
    match ReadRows(s, w, h)
    case Err(e) => Err(e)
    case Ok((rows, _)) => Ok(Grid(w, h, rows))
  }

  // ---------------------------------------------------------------------
  // Round trip

  lemma {:induction false} SkipBlanks(ws: string, s: string)
    requires AllBlank(ws)
    ensures ReadCell(ws + s) == ReadCell(s)
    decreases |ws|
  {
    if |ws| > 0 {
      assert (ws + s)[0] == ws[0];
      assert IsBlank(ws[0]);
      assert (ws + s)[1..] == ws[1..] + s;
      assert ReadCell(ws + s) == ReadCell(ws[1..] + s);
      SkipBlanks(ws[1..], s);
    } else {
      assert ws + s == s;
    }
  }

  lemma {:induction false} ReadEncodedRow(row: seq<Cell>, c: nat, rest: string)
    ensures ReadCells(EncodeFrom(row, c) + rest, |row|) == Ok((row, "\n" + rest))
    decreases |row|
  {
    if |row| > 0 {
      var (sep, c') := if c >= LineWidth then ("\n", 0) else ("", c);
      var tail := EncodeFrom(row[1..], c' + 1) + rest;
      var t := [CellChar(row[0])] + tail;
      assert EncodeFrom(row, c) + rest == sep + t;
      SkipBlanks(sep, t);
      assert t[0] == CellChar(row[0]) && t[1..] == tail;
      assert CharCell(CellChar(row[0])) == Some(row[0]);
      assert ReadCell(sep + t) == Ok((row[0], tail));
      ReadEncodedRow(row[1..], c' + 1, rest);
      assert [row[0]] + row[1..] == row;
    }
  }

  /** Blanks in front of at least one cell letter are skipped. */
  lemma ReadCellsSkipsBlanks(ws: string, s: string, n: nat)
    requires AllBlank(ws) && n > 0
    ensures ReadCells(ws + s, n) == ReadCells(s, n)
  {
    SkipBlanks(ws, s);
  }

  lemma {:induction false} ReadEncodedRows(rows: seq<seq<Cell>>, w: nat, ws: string, rest: string)
    requires forall y | 0 <= y < |rows| :: |rows[y]| == w
    requires AllBlank(ws)
    ensures var r := ReadRows(ws + EncodeRows(rows) + rest, w, |rows|);
      r.Ok? && r.value.0 == rows
    decreases |rows|
  {
    if |rows| > 0 {
      var tail := EncodeRows(rows[1..]) + rest;
      assert ws + EncodeRows(rows) + rest == ws + (EncodeRow(rows[0]) + tail);
      if w > 0 {
        ReadCellsSkipsBlanks(ws, EncodeRow(rows[0]) + tail, w);
        ReadEncodedRow(rows[0], 0, tail);
        assert "\n" + tail == "\n" + EncodeRows(rows[1..]) + rest;
        ReadEncodedRows(rows[1..], w, "\n", rest);
      } else {
        // An empty row reads nothing; its newline joins the blanks in front of the next.
        assert EncodeRow(rows[0]) == "\n";
        assert ws + (EncodeRow(rows[0]) + tail) == (ws + "\n") + EncodeRows(rows[1..]) + rest;
        ReadEncodedRows(rows[1..], w, ws + "\n", rest);
        assert rows[0] == [];
      }
      assert [rows[0]] + rows[1..] == rows;
    }
  }

  /** Decoding a written body gives back the grid, whatever follows it. */
  lemma RoundTrip(g: Grid<Cell>, rest: string)
    requires g.Valid()
    ensures Decode(Encode(g) + rest, g.width, g.height) == Ok(g)
  {
    ReadEncodedRows(g.rows, g.width, "", rest);
    assert "" + Encode(g) + rest == Encode(g) + rest;
  }

  /** Blanks in front of a body do not change what it decodes to. */
  lemma DecodeSkipsBlanks(ws: string, s: string, w: nat, h: nat)
    requires AllBlank(ws)
    ensures w > 0 && h > 0 ==> Decode(ws + s, w, h) == Decode(s, w, h)
  {
    if w > 0 && h > 0 {
      ReadCellsSkipsBlanks(ws, s, w);
    }
  }

  // ---------------------------------------------------------------------
  // Line length

  /**
   * Reading `s` left to right, with `c` letters already on the current line,
   * no line ever holds more than `k` letters.
   */
  predicate LinesWithin(s: string, c: nat, k: nat)
    decreases |s|
  {
    |s| == 0 || if s[0] == '\n' then LinesWithin(s[1..], 0, k) else c + 1 <= k && LinesWithin(s[1..], c + 1, k)
  }

  lemma {:induction false} EncodeFromLines(row: seq<Cell>, c: nat, rest: string)
    requires c <= LineWidth && LinesWithin(rest, 0, LineWidth)
    ensures LinesWithin(EncodeFrom(row, c) + rest, c, LineWidth)
    decreases |row|
  {
    var s := EncodeFrom(row, c) + rest;
    if |row| == 0 {
      assert s[1..] == rest;
    } else {
      var tail := EncodeFrom(row[1..], if c >= LineWidth then 1 else c + 1) + rest;
      EncodeFromLines(row[1..], if c >= LineWidth then 1 else c + 1, rest);
      if c >= LineWidth {
        assert s == "\n" + ([CellChar(row[0])] + tail);
        assert s[1..] == [CellChar(row[0])] + tail;
        assert s[1..][1..] == tail;
      } else {
        assert s == [CellChar(row[0])] + tail;
        assert s[1..] == tail;
      }
    }
  }

  lemma {:induction false} EncodeRowsLines(rows: seq<seq<Cell>>)
    ensures LinesWithin(EncodeRows(rows), 0, LineWidth)
    decreases |rows|
  {
    if |rows| > 0 {
      EncodeRowsLines(rows[1..]);
      EncodeFromLines(rows[0], 0, EncodeRows(rows[1..]));
    }
  }

  /** No line of a written body holds more than 78 cell letters. */
  lemma EncodeLines(g: Grid<Cell>)
    ensures LinesWithin(Encode(g), 0, LineWidth)
  {
    EncodeRowsLines(g.rows);
  }
}

=== FILE: compass.dfy ===
/** The four compass directions of the TypeScript utilities. */
module Compass {
  datatype Direction = North | South | West | East

  function Opposite(d: Direction): (r: Direction)
    ensures r != d
  {
    match d
    case North => South
    case South => North
    case West => East
    case East => West
  }

  /** North and south pair up, and so do west and east. */
  lemma OppositePairs(d: Direction, e: Direction)
    ensures Opposite(d) == e <==> {d, e} == {North, South} || {d, e} == {West, East}
  {
  }

  lemma OppositeInvolution(d: Direction)
    ensures Opposite(Opposite(d)) == d
  {
  }
}

=== FILE: create_world.dfy ===
/**
 * The TypeScript world constructor (`createWorld.ts`): every row down to
 * and including the surface row is Air, every row below it Dirt; the ants
 * stand on the surface row, face left or right, and wander; no sand is
 * falling yet. The surface row and each ant's column, facing and timer
 * jitter are inputs.
 */
module CreateWorld {
  import opened Grid
  import opened Points
  import opened Pose
  import opened AntSystem

  datatype World = World(
    width: nat, height: nat, elements: Grid<Cell>, fallingSands: seq<Point>,
    surfaceLevel: int, ants: seq<Ant>)

  function Layer(surfaceLevel: int, y: int): Cell {
    if y <= surfaceLevel then Air else Dirt
  }

  /** The initial elements: Air down to the surface row, Dirt below. */
  function Terrain(width: nat, height: nat, surfaceLevel: int): (g: Grid<Cell>)
    ensures g.Valid() && g.width == width && g.height == height
    ensures forall x, y | g.InBounds(x, y) :: (g.At(x, y) == Air <==> y <= surfaceLevel)
    ensures forall x, y | g.InBounds(x, y) :: g.At(x, y) != Sand
  {
    Grid(width, height, seq(height, y => seq(width, _ => Layer(surfaceLevel, y))))
  }

  /** A new wandering ant on the surface row, at angle 0. */
  function Recruit(x: nat, surfaceLevel: int, left: bool, jitter: Unit, active: bool): (a: Ant)
    ensures a.location == Point(x, surfaceLevel)
    ensures a.behavior == Wandering && a.angle == A0 && a.active == active
    ensures a.facing == (if left then Left else Right)
    ensures 3 <= a.timer <= 4
  {
    Ant(Point(x, surfaceLevel), if left then Left else Right, A0, Wandering, GetTimer(Wandering, jitter), active)
  }

  /**
   * Ant i stands at column `columns[i]`, faces left when `leftward[i]`
   * holds, and takes its timer jitter from `jitters[i]`.
   */
  function Create(width: nat, height: nat, surfaceLevel: int, antCount: nat,
                  columns: seq<nat>, leftward: seq<bool>, jitters: seq<Unit>, active: bool): (w: World)
    requires |columns| == antCount && |leftward| == antCount && |jitters| == antCount
    requires forall i | 0 <= i < antCount :: columns[i] < width
    ensures w.width == width && w.height == height && w.surfaceLevel == surfaceLevel
    ensures w.elements == Terrain(width, height, surfaceLevel)
    ensures w.fallingSands == []
    ensures |w.ants| == antCount
    ensures forall i | 0 <= i < antCount ::
      w.ants[i] == Recruit(columns[i], surfaceLevel, leftward[i], jitters[i], active)
    ensures forall i | 0 <= i < antCount :: 0 <= w.ants[i].location.x < width
  {
    var ants := seq(antCount, i requires 0 <= i < antCount => Recruit(columns[i], surfaceLevel, leftward[i], jitters[i], active));
    World(width, height, Terrain(width, height, surfaceLevel), [], surfaceLevel, ants)
  }

  /**
   * A fresh world holds no sand, and when the surface row and the row below
   * it lie on the grid, every ant stands on Air with Dirt underfoot.
   */
  lemma CreatedWorldHasNoSand(width: nat, height: nat, surfaceLevel: int, antCount: nat,
                              columns: seq<nat>, leftward: seq<bool>, jitters: seq<Unit>, active: bool)
    requires |columns| == antCount && |leftward| == antCount && |jitters| == antCount
    requires forall i | 0 <= i < antCount :: columns[i] < width
    ensures var w := Create(width, height, surfaceLevel, antCount, columns, leftward, jitters, active);
      SandCount(w.elements) == 0
  {
    var w := Create(width, height, surfaceLevel, antCount, columns, leftward, jitters, active);
    NoSandCount(w.elements);
  }

  /** With the surface and the row below it on the grid, each new ant stands on Air above Dirt. */
  lemma AntsStandOnDirt(width: nat, height: nat, surfaceLevel: int, antCount: nat,
                        columns: seq<nat>, leftward: seq<bool>, jitters: seq<Unit>, active: bool)
    requires |columns| == antCount && |leftward| == antCount && |jitters| == antCount
    requires forall i | 0 <= i < antCount :: columns[i] < width
    requires 0 <= surfaceLevel && surfaceLevel + 1 < height
    ensures var w := Create(width, height, surfaceLevel, antCount, columns, leftward, jitters, active);
      forall i | 0 <= i < antCount ::
        IsAir(w.elements, w.ants[i].location.x, w.ants[i].location.y) &&
        w.elements.At(w.ants[i].location.x, w.ants[i].location.y + 1) == Dirt
  {
  }
}

=== FILE: directions.dfy ===
/**
 * The eight directions of the 1991 C program. A direction is a heading plus
 * the side the ant's feet are on: `LeftDown` walks left with its feet below,
 * `UpRight` climbs with its feet to the right. `DX`/`DY` give the step taken,
 * `FootDir` the direction the ant's feet point in, and `BackDir` the
 * direction that turns the ant "toward its back".
 */
module Directions {
  type Dir = d: int | 0 <= d < 8

  const LeftDown: Dir := 0
  const LeftUp: Dir := 1
  const RightDown: Dir := 2
  const RightUp: Dir := 3
  const UpRight: Dir := 4
  const UpLeft: Dir := 5
  const DownRight: Dir := 6
  const DownLeft: Dir := 7

  /** A step of length one along exactly one axis. */
  predicate UnitStep(dx: int, dy: int) {
    (dx == 0 && (dy == 1 || dy == -1)) || (dy == 0 && (dx == 1 || dx == -1))
  }

  /** The steps of two directions are at right angles: one is vertical, the other horizontal. */
  predicate Perpendicular(a: Dir, b: Dir) {
    (DX(a) == 0) != (DX(b) == 0)
  }

  function DX(d: Dir): int {
    if d < 2 then -1 else if d < 4 then 1 else 0
  }

  function DY(d: Dir): int {
    if d < 4 then 0 else if d < 6 then -1 else 1
  }

  /** Every direction steps to one of the four orthogonal neighbours. */
  lemma StepsAreUnit(d: Dir)
    ensures UnitStep(DX(d), DY(d))
  {
  }

  /** The direction the feet point in, at right angles to the heading. */
  function FootDir(d: Dir): (f: Dir)
    ensures Perpendicular(d, f)
  {
    if d == 0 then 6
    else if d == 1 then 4
    else if d == 2 then 7
    else if d == 3 then 5
    else if d == 4 then 2
    else if d == 5 then 0
    else if d == 6 then 3
    else 1
  }

  /** The direction that turns the ant toward its back, at right angles to the heading. */
  function BackDir(d: Dir): (b: Dir)
    ensures Perpendicular(d, b)
  {
    if d == 0 then 5
    else if d == 1 then 7
    else if d == 2 then 4
    else if d == 3 then 6
    else if d == 4 then 1
    else if d == 5 then 3
    else if d == 6 then 0
    else 2
  }

  /** `BackDir` and `FootDir` are inverse permutations of the eight directions. */
  lemma BackFootInverse(d: Dir)
    ensures BackDir(FootDir(d)) == d
    ensures FootDir(BackDir(d)) == d
  {
    if d == 0 { } else if d == 1 { } else if d == 2 { } else if d == 3 { }
    else if d == 4 { } else if d == 5 { } else if d == 6 { } else { }
  }

  /** Turning toward the back twice reverses the step: the about-face. */
  lemma BackTwiceReverses(d: Dir)
    ensures DX(BackDir(BackDir(d))) == -DX(d) && DY(BackDir(BackDir(d))) == -DY(d)
  {
  }

  /** Following the feet twice also reverses the step, and never stays put. */
  lemma FootTwiceReverses(d: Dir)
    ensures DX(FootDir(FootDir(d))) == -DX(d) && DY(FootDir(FootDir(d))) == -DY(d)
    ensures FootDir(d) != d
  {
  }
}

=== FILE: ecs.dfy ===
/**
 * The entity-component-system container of the TypeScript port (`ecs.ts`).
 * Entities are kept by id; since JavaScript enumerates an object's integer
 * keys in ascending order, the entity table is an association list sorted
 * by id. Systems are opaque values: running the container hands every
 * system, in the order they were added, the same list of entities, and the
 * model returns those calls rather than performing them.
 */
module Ecs {
  import opened Wrappers

  datatype Component<D> = Component(id: nat, data: D)

  datatype Entity<D> = Entity(id: nat, components: seq<Component<D>>)

  datatype Container<D, S> = Container(entities: seq<Entity<D>>, systems: seq<S>, nextEntityId: nat, nextComponentId: nat)

  /** Ids strictly increase along the table, so each id appears once. */
  predicate Ascending<D>(es: seq<Entity<D>>) {
    forall i, j | 0 <= i < j < |es| :: es[i].id < es[j].id
  }

  /** Every entity's id is below the next id the container hands out. */
  predicate IdsBelow<D, S>(c: Container<D, S>) {
    forall i | 0 <= i < |c.entities| :: c.entities[i].id < c.nextEntityId
  }

  function Empty<D, S>(): (c: Container<D, S>)
    ensures c.entities == [] && c.systems == []
    ensures c.nextEntityId == 0 && c.nextComponentId == 0
    ensures IdsBelow(c)
  {
    Container([], [], 0, 0)
  }

  /** The entity stored under `id`, if any. */
  function Lookup<D>(es: seq<Entity<D>>, id: nat): (r: Option<Entity<D>>)
    ensures r.Some? ==> r.value in es && r.value.id == id
    ensures r.None? <==> forall i | 0 <= i < |es| :: es[i].id != id
  {
    if |es| == 0 then None
    else if es[0].id == id then Some(es[0])
    else Lookup(es[1..], id)
  }

  /** Stores `e` under its id, replacing any entity already stored there. */
  function Insert<D>(es: seq<Entity<D>>, e: Entity<D>): (r: seq<Entity<D>>)
    requires Ascending(es)
    ensures Ascending(r)
    ensures e in r
    ensures forall i | 0 <= i < |r| :: r[i] == e || r[i] in es
    ensures Lookup(es, e.id).Some? ==> |r| == |es|
    ensures Lookup(es, e.id).None? ==> |r| == |es| + 1
  {
    if |es| == 0 then [e]
    else if e.id < es[0].id then [e] + es
    else if e.id == es[0].id then
      assert forall i | 1 <= i < |es| :: es[i].id != e.id;
      [e] + es[1..]
    else
      var rest := Insert(es[1..], e);
      assert forall i | 0 <= i < |rest| :: es[0].id < rest[i].id;
      [es[0]] + rest
  }

  function AddEntity<D, S>(c: Container<D, S>, e: Entity<D>): (r: Container<D, S>)
    requires Ascending(c.entities)
    ensures Ascending(r.entities)
    ensures Lookup(r.entities, e.id) == Some(e)
    ensures forall id | id != e.id :: Lookup(r.entities, id) == Lookup(c.entities, id)
    ensures r.systems == c.systems
    ensures r.nextEntityId == c.nextEntityId && r.nextComponentId == c.nextComponentId
  {
    var es := Insert(c.entities, e);
    LookupInserted(c.entities, e);
    c.(entities := es)
  }

  function AddSystem<D, S>(c: Container<D, S>, s: S): (r: Container<D, S>)
    ensures r.systems == c.systems + [s]
    ensures r.entities == c.entities
    ensures r.nextEntityId == c.nextEntityId && r.nextComponentId == c.nextComponentId
  {
    c.(systems := c.systems + [s])
  }

  /** The calls one update makes: each system, in order, with the entity list. */
  function Update<D, S>(c: Container<D, S>): (calls: seq<(S, seq<Entity<D>>)>)
    ensures |calls| == |c.systems|
    ensures forall i | 0 <= i < |calls| :: calls[i].0 == c.systems[i]
    ensures forall i, j | 0 <= i < |calls| && 0 <= j < |calls| :: calls[i].1 == calls[j].1
    ensures forall i | 0 <= i < |calls| :: calls[i].1 == c.entities
    ensures forall i | 0 <= i < |calls| :: forall k | 0 <= k < |calls[i].1| :: Lookup(c.entities, calls[i].1[k].id).Some?
  {
    seq(|c.systems|, i requires 0 <= i < |c.systems| => (c.systems[i], c.entities))
  }

  /** A new entity takes the next id; the container does not store it. */
  function CreateEntity<D, S>(c: Container<D, S>, components: seq<Component<D>>): (r: (Container<D, S>, Entity<D>))
    ensures r.1.id == c.nextEntityId && r.1.components == components
    ensures r.0.nextEntityId == c.nextEntityId + 1
    ensures r.0.entities == c.entities && r.0.systems == c.systems && r.0.nextComponentId == c.nextComponentId
  {
    (c.(nextEntityId := c.nextEntityId + 1), Entity(c.nextEntityId, components))
  }

  /** A new component takes the next component id. */
  function CreateComponent<D, S>(c: Container<D, S>, data: D): (r: (Container<D, S>, Component<D>))
    ensures r.1.id == c.nextComponentId && r.1.data == data
    ensures r.0.nextComponentId == c.nextComponentId + 1
    ensures r.0.entities == c.entities && r.0.systems == c.systems && r.0.nextEntityId == c.nextEntityId
  {
    (c.(nextComponentId := c.nextComponentId + 1), Component(c.nextComponentId, data))
  }

  lemma {:induction false} LookupInserted<D>(es: seq<Entity<D>>, e: Entity<D>)
    requires Ascending(es)
    ensures Lookup(Insert(es, e), e.id) == Some(e)
    ensures forall id | id != e.id :: Lookup(Insert(es, e), id) == Lookup(es, id)
    decreases |es|
  {
    var r := Insert(es, e);
    if |es| == 0 {
    } else if e.id < es[0].id {
      assert r[1..] == es;
    } else if e.id == es[0].id {
      assert r[1..] == es[1..];
    } else {
      LookupInserted(es[1..], e);
      assert r[1..] == Insert(es[1..], e);
    }
  }

  /** In a sorted table, looking up a stored entity's id finds that entity. */
  lemma {:induction false} LookupStored<D>(es: seq<Entity<D>>, i: nat)
    requires Ascending(es) && i < |es|
    ensures Lookup(es, es[i].id) == Some(es[i])
    decreases i
  {
    if i > 0 {
      LookupStored(es[1..], i - 1);
    }
  }

  /** Storing the same entity twice is the same as storing it once. */
  lemma {:induction false} InsertIdempotent<D>(es: seq<Entity<D>>, e: Entity<D>)
    requires Ascending(es)
    ensures Insert(Insert(es, e), e) == Insert(es, e)
    decreases |es|
  {
    if |es| == 0 {
    } else if e.id < es[0].id {
      assert Insert(es, e)[1..] == es;
    } else if e.id == es[0].id {
      assert Insert(es, e)[1..] == es[1..];
    } else {
      InsertIdempotent(es[1..], e);
      assert Insert(es, e)[1..] == Insert(es[1..], e);
    }
  }

  /**
   * Creating an entity and then adding it grows the table by one entry,
   * leaves every stored entity in place, and keeps all ids below the next
   * one, as long as they were below it before.
   */
  lemma CreateThenAdd<D, S>(c: Container<D, S>, components: seq<Component<D>>)
    requires Ascending(c.entities) && IdsBelow(c)
    ensures var (c1, e) := CreateEntity(c, components);
      var c2 := AddEntity(c1, e);
      IdsBelow(c2) && |c2.entities| == |c.entities| + 1 &&
      forall i | 0 <= i < |c.entities| :: c.entities[i] in c2.entities
  {
    var (c1, e) := CreateEntity(c, components);
    var c2 := AddEntity(c1, e);
    assert Lookup(c1.entities, e.id).None?;
    forall i | 0 <= i < |c.entities|
      ensures c.entities[i] in c2.entities
    {
      LookupStored(c.entities, i);
      assert Lookup(c2.entities, c.entities[i].id) == Some(c.entities[i]);
    }
    forall i | 0 <= i < |c2.entities|
      ensures c2.entities[i].id < c2.nextEntityId
    {
      assert c2.entities[i] == e || c2.entities[i] in c.entities;
    }
  }

  /** A system added last is called last, after all the ones before it. */
  lemma AddSystemCalledLast<D, S>(c: Container<D, S>, s: S)
    ensures var calls := Update(AddSystem(c, s));
      calls == Update(c) + [(s, c.entities)]
  {
    var calls := Update(AddSystem(c, s));
    assert calls == Update(c) + [(s, c.entities)];
  }
}

=== FILE: falling_sand.dfy ===
/**
 * The C program's falling-sand activation list and its gravity pass
 * (`loosen_one`, `loosen_neighbors`, `sand_fall`). The list is a sequence of
 * slots; a slot that has come to rest is marked inactive and may later be
 * reused. Only active slots are ever evaluated, so the pass never scans the
 * whole grid.
 */
module FallingSand {
  import opened Grid

  /** This depth of sand below a resting grain turns to dirt. */
  const Compact: nat := 15

  datatype Slot = Slot(x: int, y: int, active: bool)

  /** Some active slot tracks (x, y). */
  predicate ActiveAt(s: seq<Slot>, x: int, y: int) {
    exists i | 0 <= i < |s| :: s[i].active && s[i].x == x && s[i].y == y
  }

  predicate AllActive(s: seq<Slot>) {
    forall i | 0 <= i < |s| :: s[i].active
  }

  /** No two active slots track the same cell. */
  predicate NoDuplicateActive(s: seq<Slot>) {
    forall i, j | 0 <= i < j < |s| && s[i].active && s[j].active :: s[i].x != s[j].x || s[i].y != s[j].y
  }

  /** Every tracked cell lies on the grid. */
  ghost predicate ActiveWithin(g: Grid<Cell>, s: seq<Slot>) {
    forall a, b | ActiveAt(s, a, b) :: g.InBounds(a, b)
  }

  /** Active slots are kept, unchanged and at the same index. */
  predicate KeepsActive(s: seq<Slot>, r: seq<Slot>) {
    |s| <= |r| && forall i | 0 <= i < |s| && s[i].active :: r[i] == s[i]
  }

  /** The first slot that is not active, or |s| when every slot is. */
  function FirstFree(s: seq<Slot>): (i: nat)
    ensures i <= |s|
    ensures i < |s| ==> !s[i].active
    ensures forall j | 0 <= j < i :: s[j].active
  {
    if |s| == 0 then 0 else if !s[0].active then 0 else 1 + FirstFree(s[1..])
  }

  /**
   * Marks (x, y) as loose. Nothing changes when an active slot already
   * tracks it; otherwise the first inactive slot is reused, and only when
   * there is none does the list grow.
   */
  function LoosenOne(s: seq<Slot>, x: int, y: int): (r: seq<Slot>)
    ensures ActiveAt(r, x, y)
    ensures forall a, b :: ActiveAt(r, a, b) <==> ActiveAt(s, a, b) || (a == x && b == y)
    ensures KeepsActive(s, r)
    ensures ActiveAt(s, x, y) ==> r == s
    ensures |r| == if !ActiveAt(s, x, y) && AllActive(s) then |s| + 1 else |s|
    ensures NoDuplicateActive(s) ==> NoDuplicateActive(r)
  {
    if ActiveAt(s, x, y) then s
    else
      var i := FirstFree(s);
      var r := if i < |s| then s[i := Slot(x, y, true)] else s + [Slot(x, y, true)];
      assert r[i] == Slot(x, y, true);
      assert forall j | 0 <= j < |r| && j != i :: r[j] == s[j];
      r
  }

  function LoosenFrom(g: Grid<Cell>, s: seq<Slot>, xc: int, yc: int, k: nat): (r: seq<Slot>)
    requires g.Valid() && k <= 25
    ensures forall a, b :: ActiveAt(r, a, b) <==> ActiveAt(s, a, b) || ScanHit(g, xc, yc, k, a, b)
    ensures KeepsActive(s, r)
    ensures NoDuplicateActive(s) ==> NoDuplicateActive(r)
    decreases 25 - k
  {
    if k == 25 then s
    else
      var x := xc + WindowOffset(k).0;
      var y := yc + WindowOffset(k).1;
      var s' := if (x != xc || y != yc) && IsSand(g, x, y) then LoosenOne(s, x, y) else s;
      ScanHitStep(g, xc, yc, k);
      LoosenFrom(g, s', xc, yc, k + 1)
  }

  /**
   * Wakes every in-bounds Sand cell within two steps of (xc, yc) on each axis,
   * except the centre; nothing else becomes active and no active slot moves.
   */
  function LoosenNeighbors(g: Grid<Cell>, s: seq<Slot>, xc: int, yc: int): (r: seq<Slot>)
    requires g.Valid()
    ensures forall a, b :: ActiveAt(r, a, b) <==> ActiveAt(s, a, b) || Loosenable(g, xc, yc, a, b)
    ensures KeepsActive(s, r)
    ensures NoDuplicateActive(s) ==> NoDuplicateActive(r)
    ensures ActiveWithin(g, s) ==> ActiveWithin(g, r)
  {
    ScanHitWindow(g, xc, yc);
    LoosenFrom(g, s, xc, yc, 0)
  }

  /** Deactivating a slot never puts a tracked cell off the grid. */
  lemma DeactivateWithin(g: Grid<Cell>, s: seq<Slot>, i: nat)
    requires i < |s|
    ensures forall a, b | ActiveAt(s[i := s[i].(active := false)], a, b) :: ActiveAt(s, a, b)
  {
    var s' := s[i := s[i].(active := false)];
    forall a, b | ActiveAt(s', a, b) ensures ActiveAt(s, a, b) {
      var k :| 0 <= k < |s'| && s'[k].active && s'[k].x == a && s'[k].y == b;
      assert s[k] == s'[k];
    }
  }

  // ----- sand_fall -----

  /** Three Air cells stacked from (x, y) down: a column a grain can tip into. */
  predicate TipOpen(g: Grid<Cell>, x: int, y: int)
    requires g.Valid()
  {
    IsAir(g, x, y) && IsAir(g, x, y + 1) && IsAir(g, x, y + 2)
  }

  /** What one tracked grain does in a pass. */
  datatype Motion = Bottom | Rest | To(nx: int, ny: int)

  /**
   * The grain at (x, y) stops on the bottom row, falls straight down into
   * Air, tips diagonally into an open column on one side (a coin picks the
   * side when both are open), or comes to rest.
   */
  function Plan(g: Grid<Cell>, x: int, y: int, coin: nat): (m: Motion)
    requires g.Valid() && g.InBounds(x, y)
    ensures m.Bottom? <==> y + 1 >= g.height
    ensures m.Rest? <==> y + 1 < g.height && !IsAir(g, x, y + 1) && !TipOpen(g, x - 1, y) && !TipOpen(g, x + 1, y)
    ensures m.To? ==> m.ny == y + 1 && IsAir(g, m.nx, m.ny)
    ensures m.To? ==> (m.nx == x <==> IsAir(g, x, y + 1))
    ensures m.To? && m.nx != x ==> (m.nx == x - 1 || m.nx == x + 1) && TipOpen(g, m.nx, y)
    ensures !IsAir(g, x, y + 1) && TipOpen(g, x - 1, y) && TipOpen(g, x + 1, y) ==>
      m == To(if coin % 2 == 0 then x + 1 else x - 1, y + 1)
  {
    if y + 1 >= g.height then Bottom
    else if g.At(x, y + 1) == Air then To(x, y + 1)
    else
      var tipLeft := TipOpen(g, x - 1, y);
      var tipRight := TipOpen(g, x + 1, y);
      if tipLeft && tipRight then To(if coin % 2 == 0 then x + 1 else x - 1, y + 1)
      else if tipLeft then To(x - 1, y + 1)
      else if tipRight then To(x + 1, y + 1)
      else Rest
  }

  datatype Fall = Fall(world: Grid<Cell>, sands: seq<Slot>)

  /**
   * What a grain resting at (x, y) does to the column below it: when the
   * unbroken run of Sand beneath it is at least `Compact` deep, the bottom
   * grain of the run is pressed into Dirt, and one grain of Sand is lost;
   * otherwise nothing changes.
   */
  function Compaction(g: Grid<Cell>, x: int, y: int): (w: Grid<Cell>)
    requires g.Valid() && g.InBounds(x, y)
    ensures w.Valid() && SameShape(w, g)
    ensures var j := SandRun(g, x, y + 1);
      && (j >= Compact ==> g.At(x, y + j) == Sand && w.At(x, y + j) == Dirt)
      && (forall a, b | g.InBounds(a, b) && (j < Compact || a != x || b != y + j) :: w.At(a, b) == g.At(a, b))
      && SandCount(w) + (if j >= Compact then 1 else 0) == SandCount(g)
  {
    var j := SandRun(g, x, y + 1);
    if j >= Compact then
      assert IsSand(g, x, y + 1 + j - 1);
      SetSandCount(g, x, y + j, Dirt);
      g.Set(x, y + j, Dirt)
    else g
  }

  /**
   * Evaluates active slot i once. A grain on the bottom row, or one with
   * nowhere to go, is deactivated; a resting grain may then compact the
   * bottom of the sand column beneath it into Dirt. A moving grain leaves Air
   * behind, lands as Sand, keeps its slot, and loosens the sand around the
   * cell it left.
   */
  function FallStep(g: Grid<Cell>, s: seq<Slot>, i: nat, coin: nat): (r: Fall)
    requires g.Valid() && i < |s| && s[i].active && g.InBounds(s[i].x, s[i].y)
    ensures r.world.Valid() && SameShape(r.world, g) && |s| <= |r.sands|
    ensures ActiveWithin(g, s) ==> ActiveWithin(r.world, r.sands)
    ensures Plan(g, s[i].x, s[i].y, coin).Bottom? ==> r == Fall(g, s[i := s[i].(active := false)])
    ensures Plan(g, s[i].x, s[i].y, coin).Rest? ==>
      r == Fall(Compaction(g, s[i].x, s[i].y), s[i := s[i].(active := false)])
    ensures Plan(g, s[i].x, s[i].y, coin).To? ==>
      var m := Plan(g, s[i].x, s[i].y, coin);
      && r.world == g.Set(s[i].x, s[i].y, Air).Set(m.nx, m.ny, Sand)
      && r.sands[i] == Slot(m.nx, m.ny, true)
      && forall a, b :: ActiveAt(r.sands, a, b) <==>
           ActiveAt(s[i := Slot(m.nx, m.ny, true)], a, b) || Loosenable(r.world, s[i].x, s[i].y, a, b)
  {
    var x, y := s[i].x, s[i].y;
    match Plan(g, x, y, coin)
    case Bottom => Fall(g, s[i := s[i].(active := false)])
    case Rest =>
      var w := Compaction(g, x, y);
      var s' := s[i := s[i].(active := false)];
      assert ActiveWithin(g, s) ==> ActiveWithin(w, s') by {
        DeactivateWithin(g, s, i);
        assert SameShape(w, g);
        if ActiveWithin(g, s) {
          forall a, b | ActiveAt(s', a, b) ensures w.InBounds(a, b) {
            assert ActiveAt(s, a, b);
            assert g.InBounds(a, b);
          }
        }
      }
      Fall(w, s')
    case To(nx, ny) =>
      var w := g.Set(x, y, Air).Set(nx, ny, Sand);
      var s' := s[i := Slot(nx, ny, true)];
      assert ActiveWithin(g, s) ==> ActiveWithin(w, s') by {
        if ActiveWithin(g, s) {
          forall a, b | ActiveAt(s', a, b) ensures w.InBounds(a, b) {
            var k :| 0 <= k < |s'| && s'[k].active && s'[k].x == a && s'[k].y == b;
            if k != i {
              assert ActiveAt(s, a, b) by { assert s[k] == s'[k]; }
            }
          }
        }
      }
      Fall(w, LoosenNeighbors(w, s', x, y))
  }

  /**
   * One `sand_fall` pass from slot i on. The loop re-reads the list length,
   * so slots appended while loosening are evaluated in the same pass. One
   * coin is spent per slot visited; the pass stops early if they run out.
   * When no active slot was met the list is emptied.
   */
  function FallPass(g: Grid<Cell>, s: seq<Slot>, i: nat, coins: seq<nat>, gotOne: bool): (r: Fall)
    requires g.Valid() && ActiveWithin(g, s)
    ensures r.world.Valid() && SameShape(r.world, g)
    ensures ActiveWithin(r.world, r.sands)
    decreases |coins|
  {
    if i >= |s| then
      if gotOne then Fall(g, s) else Fall(g, [])
    else if |coins| == 0 then Fall(g, s)
    else if !s[i].active then FallPass(g, s, i + 1, coins[1..], gotOne)
    else
      assert ActiveAt(s, s[i].x, s[i].y);
      var f := FallStep(g, s, i, coins[0]);
      FallPass(f.world, f.sands, i + 1, coins[1..], true)
  }

  function SandFall(g: Grid<Cell>, s: seq<Slot>, coins: seq<nat>): (r: Fall)
    requires g.Valid() && ActiveWithin(g, s)
    ensures r.world.Valid() && SameShape(r.world, g)
    ensures ActiveWithin(r.world, r.sands)
  {
    FallPass(g, s, 0, coins, false)
  }

  // ----- what a pass preserves -----

  /**
   * The list is a faithful record of loose sand: every tracked cell is on
   * the grid and holds something other than Air, and no cell is tracked twice.
   */
  ghost predicate Tracked(g: Grid<Cell>, s: seq<Slot>)
    requires g.Valid()
  {
    && ActiveWithin(g, s)
    && NoDuplicateActive(s)
    && forall a, b | ActiveAt(s, a, b) :: !IsAir(g, a, b)
  }

  /** A grain that moves swaps places with the Air it moves into, so no Sand is made or lost. */
  lemma FallStepConservesSand(g: Grid<Cell>, s: seq<Slot>, i: nat, coin: nat)
    requires g.Valid() && i < |s| && s[i].active && g.InBounds(s[i].x, s[i].y)
    requires g.At(s[i].x, s[i].y) == Sand
    requires Plan(g, s[i].x, s[i].y, coin).To?
    ensures var m := Plan(g, s[i].x, s[i].y, coin);
      FallStep(g, s, i, coin).world == Swap(g, s[i].x, s[i].y, m.nx, m.ny)
    ensures SandCount(FallStep(g, s, i, coin).world) == SandCount(g)
  {
    var m := Plan(g, s[i].x, s[i].y, coin);
    var w := FallStep(g, s, i, coin).world;
    var sw := Swap(g, s[i].x, s[i].y, m.nx, m.ny);
    assert w.rows == sw.rows by {
      forall a, b | g.InBounds(a, b) ensures w.At(a, b) == sw.At(a, b) { }
      GridExt(w, sw);
    }
    SwapSandCount(g, s[i].x, s[i].y, m.nx, m.ny);
  }

  lemma GridExt<T>(a: Grid<T>, b: Grid<T>)
    requires a.Valid() && b.Valid() && SameShape(a, b)
    requires forall x, y | a.InBounds(x, y) :: a.At(x, y) == b.At(x, y)
    ensures a == b
  {
    forall y | 0 <= y < a.height ensures a.rows[y] == b.rows[y] {
      forall x | 0 <= x < a.width ensures a.rows[y][x] == b.rows[y][x] {
        assert a.At(x, y) == b.At(x, y);
      }
    }
  }

  /** Loosening only adds Sand cells that were not tracked yet. */
  lemma LoosenTracked(g: Grid<Cell>, s: seq<Slot>, xc: int, yc: int)
    requires g.Valid() && Tracked(g, s)
    ensures Tracked(g, LoosenNeighbors(g, s, xc, yc))
  {
    var r := LoosenNeighbors(g, s, xc, yc);
    forall a, b | ActiveAt(r, a, b) ensures !IsAir(g, a, b) {
      if !ActiveAt(s, a, b) {
        assert Loosenable(g, xc, yc, a, b);
      }
    }
  }

  /** Moving a tracked grain into Air keeps the record faithful. */
  lemma MoveTracked(g: Grid<Cell>, s: seq<Slot>, i: nat, nx: int, ny: int)
    requires g.Valid() && i < |s| && s[i].active && Tracked(g, s) && IsAir(g, nx, ny)
    ensures g.InBounds(s[i].x, s[i].y)
    ensures Tracked(g.Set(s[i].x, s[i].y, Air).Set(nx, ny, Sand), s[i := Slot(nx, ny, true)])
  {
    assert ActiveAt(s, s[i].x, s[i].y);
    var x, y := s[i].x, s[i].y;
    var w := g.Set(x, y, Air).Set(nx, ny, Sand);
    var s' := s[i := Slot(nx, ny, true)];
    forall k | 0 <= k < |s| && k != i && s[k].active
      ensures (s[k].x != nx || s[k].y != ny) && (s[k].x != x || s[k].y != y)
    {
      assert ActiveAt(s, s[k].x, s[k].y);
      if k < i { } else { }
    }
    assert NoDuplicateActive(s');
    forall a, b | ActiveAt(s', a, b) ensures w.InBounds(a, b) && !IsAir(w, a, b) {
      var k :| 0 <= k < |s'| && s'[k].active && s'[k].x == a && s'[k].y == b;
      if k != i {
        assert s'[k] == s[k];
        assert ActiveAt(s, a, b);
      }
    }
  }

  /** Evaluating one slot keeps the list a faithful record of loose sand. */
  lemma FallStepTracked(g: Grid<Cell>, s: seq<Slot>, i: nat, coin: nat)
    requires g.Valid() && i < |s| && s[i].active && Tracked(g, s)
    ensures g.InBounds(s[i].x, s[i].y)
    ensures var r := FallStep(g, s, i, coin); Tracked(r.world, r.sands)
  {
    assert ActiveAt(s, s[i].x, s[i].y);
    var x, y := s[i].x, s[i].y;
    var r := FallStep(g, s, i, coin);
    match Plan(g, x, y, coin)
    case Bottom =>
      DeactivateWithin(g, s, i);
    case Rest =>
      DeactivateWithin(g, s, i);
      forall a, b | ActiveAt(r.sands, a, b) ensures !IsAir(r.world, a, b) {
        assert ActiveAt(s, a, b);
      }
    case To(nx, ny) =>
      MoveTracked(g, s, i, nx, ny);
      LoosenTracked(g.Set(x, y, Air).Set(nx, ny, Sand), s[i := Slot(nx, ny, true)], x, y);
  }

  /** A whole pass keeps the list a faithful record of loose sand. */
  lemma {:induction false} FallPassTracked(g: Grid<Cell>, s: seq<Slot>, i: nat, coins: seq<nat>, gotOne: bool)
    requires g.Valid() && Tracked(g, s)
    ensures var r := FallPass(g, s, i, coins, gotOne); Tracked(r.world, r.sands)
    decreases |coins|
  {
    if i >= |s| || |coins| == 0 {
    } else if !s[i].active {
      FallPassTracked(g, s, i + 1, coins[1..], gotOne);
    } else {
      FallStepTracked(g, s, i, coins[0]);
      var f := FallStep(g, s, i, coins[0]);
      FallPassTracked(f.world, f.sands, i + 1, coins[1..], true);
    }
  }

  /** A pass that meets no active slot leaves the grid alone and empties the list. */
  lemma {:induction false} IdlePassClears(g: Grid<Cell>, s: seq<Slot>, i: nat, coins: seq<nat>)
    requires g.Valid() && ActiveWithin(g, s)
    requires forall k | i <= k < |s| :: !s[k].active
    requires |coins| >= |s| - i
    ensures FallPass(g, s, i, coins, false) == Fall(g, [])
    decreases |coins|
  {
    if i < |s| {
      IdlePassClears(g, s, i + 1, coins[1..]);
    }
  }
}

=== FILE: gravity_system.dfy ===
/**
 * The TypeScript `gravitySystem.ts` pass over the element world, where loose
 * sand is marked by each cell's `active` flag instead of a list. The sand
 * pass plans every active grain's move on the grid as it was, swaps each
 * moving grain with its target (element and flag travel together), then in
 * the same order lets resting grains compact and deactivate and moved
 * grains loosen their neighbours. The ant pass then drops every active ant
 * whose footing has gone by one row.
 */
module GravitySystem {
  import opened Grid
  import opened Points
  import opened Pose
  import opened Tiles
  import opened SandRules
  import opened AntSystem

  /** Row-major order: by row, then by column. */
  predicate Before(p: Point, q: Point) {
    p.y < q.y || (p.y == q.y && p.x < q.x)
  }

  /** An in-bounds Sand cell with its active flag set. */
  predicate ActiveSand(w: World, p: Point)
    requires Valid(w)
  {
    IsSand(w.elements, p.x, p.y) && w.active.At(p.x, p.y)
  }

  function RowActive(w: World, y: nat, x: nat): (r: seq<Point>)
    requires Valid(w) && y < w.elements.height && x <= w.elements.width
    ensures forall p :: p in r <==> p.y == y && x <= p.x && ActiveSand(w, p)
    ensures forall i, j | 0 <= i < j < |r| :: Before(r[i], r[j])
    ensures forall i | 0 <= i < |r| :: r[i].y == y && x <= r[i].x
    decreases w.elements.width - x
  {
    if x == w.elements.width then []
    else
      var rest := RowActive(w, y, x + 1);
      if ActiveSand(w, Point(x, y)) then [Point(x, y)] + rest else rest
  }

  function ActiveFrom(w: World, y: nat): (r: seq<Point>)
    requires Valid(w) && y <= w.elements.height
    ensures forall p :: p in r <==> y <= p.y && ActiveSand(w, p)
    ensures forall i, j | 0 <= i < j < |r| :: Before(r[i], r[j])
    ensures forall i | 0 <= i < |r| :: y <= r[i].y
    decreases w.elements.height - y
  {
    if y == w.elements.height then []
    else
      var row := RowActive(w, y, 0);
      var rest := ActiveFrom(w, y + 1);
      ActiveJoin(w, y, row, rest);
      row + rest
  }

  /** Row y's active grains followed by those of the rows below it. */
  lemma ActiveJoin(w: World, y: nat, row: seq<Point>, rest: seq<Point>)
    requires Valid(w) && y < w.elements.height
    requires forall p :: p in row <==> p.y == y && ActiveSand(w, p)
    requires forall i, j | 0 <= i < j < |row| :: Before(row[i], row[j])
    requires forall i | 0 <= i < |row| :: row[i].y == y
    requires forall p :: p in rest <==> y + 1 <= p.y && ActiveSand(w, p)
    requires forall i, j | 0 <= i < j < |rest| :: Before(rest[i], rest[j])
    requires forall i | 0 <= i < |rest| :: y + 1 <= rest[i].y
    ensures var r := row + rest;
      && (forall p :: p in r <==> y <= p.y && ActiveSand(w, p))
      && (forall i, j | 0 <= i < j < |r| :: Before(r[i], r[j]))
      && (forall i | 0 <= i < |r| :: y <= r[i].y)
  {
    var r := row + rest;
    forall p ensures p in r <==> y <= p.y && ActiveSand(w, p) {
      assert p in r <==> p in row || p in rest;
    }
    forall i, j | 0 <= i < j < |r| ensures Before(r[i], r[j]) {
      if j < |row| {
        assert r[i] == row[i] && r[j] == row[j];
      } else if i < |row| {
        assert r[i] == row[i] && r[j] == rest[j - |row|];
      } else {
        assert r[i] == rest[i - |row|] && r[j] == rest[j - |row|];
      }
    }
    forall i | 0 <= i < |r| ensures y <= r[i].y {
      if i < |row| {
        assert r[i] == row[i];
      } else {
        assert r[i] == rest[i - |row|];
      }
    }
  }

  /** The active Sand cells, in row-major order, each listed once. */
  function ActiveSands(w: World): (r: seq<Point>)
    requires Valid(w)
    ensures forall p :: p in r <==> ActiveSand(w, p)
    ensures forall i, j | 0 <= i < j < |r| :: Before(r[i], r[j])
    ensures OnGrid(w.elements, r)
  {
    ActiveFrom(w, 0)
  }

  /** No move starts or ends at (x, y). */
  predicate Untouched(moves: seq<Fall>, x: int, y: int) {
    forall m | m in moves :: m.from != Point(x, y) && m.to != Point(x, y)
  }

  /** The active flags as the sand pass's swaps leave them: each move's two flags exchanged, in order. */
  function SwapFlags(a: Grid<bool>, moves: seq<Fall>): (r: Grid<bool>)
    requires a.Valid() && PlanOnGrid(a, moves)
    ensures r.Valid() && SameShape(r, a)
    ensures forall x, y | a.InBounds(x, y) && Untouched(moves, x, y) :: r.At(x, y) == a.At(x, y)
    decreases |moves|
  {
    if |moves| == 0 then a
    else
      var m := moves[0];
      SwapFlags(Swap(a, m.from.x, m.from.y, m.to.x, m.to.y), moves[1..])
  }

  /**
   * What the sand pass knows about its moves before any swap: each starts
   * on an active Sand cell and ends on an Air cell.
   */
  predicate LooseSources(a: Grid<bool>, g: Grid<Cell>, moves: seq<Fall>)
    requires a.Valid() && g.Valid() && PlanOnGrid(a, moves)
  {
    forall m | m in moves :: a.At(m.from.x, m.from.y) && IsSand(g, m.from.x, m.from.y) && IsAir(g, m.to.x, m.to.y)
  }

  /** One swap keeps the sources of the later moves as they were. */
  lemma SwapKeepsSources(a: Grid<bool>, g: Grid<Cell>, moves: seq<Fall>)
    requires a.Valid() && g.Valid() && PlanOnGrid(a, moves) && |moves| > 0
    requires LooseSources(a, g, moves) && DistinctSources(moves)
    ensures var m := moves[0];
      var a' := Swap(a, m.from.x, m.from.y, m.to.x, m.to.y);
      PlanOnGrid(a', moves[1..]) && LooseSources(a', g, moves[1..]) && DistinctSources(moves[1..])
  {
    var m := moves[0];
    var rest := moves[1..];
    forall k | 0 <= k < |rest|
      ensures rest[k].from != m.from && rest[k].from != m.to && rest[k] in moves
    {
      assert rest[k] == moves[k + 1];
    }
    forall i, j | 0 <= i < j < |rest| ensures rest[i].from != rest[j].from {
      assert rest[i] == moves[i + 1] && rest[j] == moves[j + 1];
    }
  }

  /**
   * A set flag that no later move starts from stays set: a move can only
   * swap it with the flag of its source, which is still set.
   */
  lemma {:induction false} SwapFlagsKeeps(a: Grid<bool>, g: Grid<Cell>, moves: seq<Fall>, p: Point)
    requires a.Valid() && g.Valid() && PlanOnGrid(a, moves)
    requires LooseSources(a, g, moves) && DistinctSources(moves)
    requires a.InBounds(p.x, p.y) && a.At(p.x, p.y)
    requires forall m | m in moves :: m.from != p
    ensures SwapFlags(a, moves).At(p.x, p.y)
    decreases |moves|
  {
    if |moves| > 0 {
      var m := moves[0];
      var a' := Swap(a, m.from.x, m.from.y, m.to.x, m.to.y);
      SwapKeepsSources(a, g, moves);
      assert a'.At(p.x, p.y);
      forall m' | m' in moves[1..] ensures m'.from != p {
        assert m' in moves;
      }
      SwapFlagsKeeps(a', g, moves[1..], p);
    }
  }

  /** Every moving grain's landing cell ends the swaps with its flag set. */
  lemma {:induction false} SwapFlagsLands(a: Grid<bool>, g: Grid<Cell>, moves: seq<Fall>)
    requires a.Valid() && g.Valid() && PlanOnGrid(a, moves)
    requires LooseSources(a, g, moves) && DistinctSources(moves)
    ensures forall m | m in moves :: SwapFlags(a, moves).At(m.to.x, m.to.y)
    decreases |moves|
  {
    if |moves| > 0 {
      var m := moves[0];
      var a' := Swap(a, m.from.x, m.from.y, m.to.x, m.to.y);
      SwapKeepsSources(a, g, moves);
      SwapFlagsLands(a', g, moves[1..]);
      forall m' | m' in moves[1..] ensures m'.from != m.to {
        assert m' in moves;
      }
      SwapFlagsKeeps(a', g, moves[1..], m.to);
      assert SwapFlags(a, moves) == SwapFlags(a', moves[1..]);
      forall m' | m' in moves ensures SwapFlags(a, moves).At(m'.to.x, m'.to.y) {
        if m' != m {
          assert m' in moves[1..] by {
            var k :| 0 <= k < |moves| && moves[k] == m';
            assert k > 0 && moves[1..][k - 1] == m';
          }
        }
      }
    }
  }

  /** Swaps each moving grain with its target, element and flag together, in order. */
  function SwapCellsAll(w: World, moves: seq<Fall>): (r: World)
    requires Valid(w) && PlanOnGrid(w.elements, moves)
    ensures Valid(r) && SameFrame(r, w)
    ensures r.elements == SwapAll(w.elements, moves)
    ensures r.active == SwapFlags(w.active, moves)
    decreases |moves|
  {
    if |moves| == 0 then w
    else
      var m := moves[0];
      SwapCellsAll(SwapCells(w, m.from, m.to), moves[1..])
  }

  /**
   * A resting grain at p: compaction as in `sandFall`, then the active flag
   * is cleared at the cell the compaction looked at, which is p itself only
   * when no Sand lies under it.
   */
  function Rest(w: World, p: Point, threshold: nat): (r: World)
    requires Valid(w) && WithinBounds(w, p)
    ensures Valid(r) && SameFrame(r, w)
    ensures r.elements == Compact(w.elements, p, threshold)
    ensures var c := CompactionCell(w.elements, p);
      w.elements.InBounds(c.x, c.y) && r.active == w.active.Set(c.x, c.y, false)
    ensures SandRun(w.elements, p.x, p.y + 1) > 0 ==> r.active.At(p.x, p.y) == w.active.At(p.x, p.y)
  {
    var c := CompactionCell(w.elements, p);
    var w' := w.(elements := Compact(w.elements, p, threshold));
    w'.(active := w.active.Set(c.x, c.y, false))
  }

  /** The last phase, from plan k on. */
  function Settle(w: World, plan: seq<Fall>, k: nat, threshold: nat): (r: World)
    requires Valid(w) && PlanOnGrid(w.elements, plan) && k <= |plan|
    ensures Valid(r) && SameFrame(r, w)
    ensures (forall j | k <= j < |plan| :: Moves(plan[j])) ==> r.elements == w.elements
    decreases |plan| - k
  {
    if k == |plan| then w
    else
      var m := plan[k];
      var w' := if Moves(m) then LoosenNeighbors(w, m.to) else Rest(w, m.from, threshold);
      Settle(w', plan, k + 1, threshold)
  }

  /** Some plan from step k on moved and loosens the cell (x, y) of g. */
  predicate Loosened(g: Grid<Cell>, plan: seq<Fall>, k: nat, x: int, y: int)
    requires g.Valid()
  {
    exists j | k <= j < |plan| :: Moves(plan[j]) && Loosenable(g, plan[j].to.x, plan[j].to.y, x, y)
  }

  /** A flag the last phase sets lies near where some plan from step k on landed. */
  lemma {:induction false} SettleNear(w: World, plan: seq<Fall>, k: nat, threshold: nat)
    requires Valid(w) && PlanOnGrid(w.elements, plan) && k <= |plan|
    ensures var r := Settle(w, plan, k, threshold);
      forall x, y | w.elements.InBounds(x, y) && r.active.At(x, y) && !w.active.At(x, y) ::
        NearLanding(plan, k, Point(x, y))
    decreases |plan| - k
  {
    if k < |plan| {
      var m := plan[k];
      var w' := if Moves(m) then LoosenNeighbors(w, m.to) else Rest(w, m.from, threshold);
      var r := Settle(w', plan, k + 1, threshold);
      assert Settle(w, plan, k, threshold) == r;
      SettleNear(w', plan, k + 1, threshold);
      SettleStepNear(w, w', plan, k, threshold);
      forall x, y | w.elements.InBounds(x, y) && r.active.At(x, y) && !w.active.At(x, y)
        ensures NearLanding(plan, k, Point(x, y))
      {
        if w'.active.At(x, y) {
          assert NearLanding(plan, k, Point(x, y));
        } else {
          assert w'.elements.InBounds(x, y);
          assert NearLanding(plan, k + 1, Point(x, y));
          NearLandingEarlier(plan, k, Point(x, y));
        }
      }
    }
  }

  lemma NearLandingEarlier(plan: seq<Fall>, k: nat, q: Point)
    requires NearLanding(plan, k + 1, q)
    ensures NearLanding(plan, k, q)
  {
    var j :| k + 1 <= j < |plan| && Moves(plan[j]) && -2 <= q.x - plan[j].to.x <= 2 && -2 <= q.y - plan[j].to.y <= 2;
  }

  /** One step of the last phase sets a flag only near the landing cell of a moved plan. */
  lemma SettleStepNear(w: World, w': World, plan: seq<Fall>, k: nat, threshold: nat)
    requires Valid(w) && PlanOnGrid(w.elements, plan) && k < |plan|
    requires w' == if Moves(plan[k]) then LoosenNeighbors(w, plan[k].to) else Rest(w, plan[k].from, threshold)
    ensures forall x, y | w.elements.InBounds(x, y) && w'.active.At(x, y) && !w.active.At(x, y) ::
      NearLanding(plan, k, Point(x, y))
  {
    var m := plan[k];
    forall x, y | w.elements.InBounds(x, y) && w'.active.At(x, y) && !w.active.At(x, y)
      ensures NearLanding(plan, k, Point(x, y))
    {
      if Moves(m) {
        assert Loosenable(w.elements, m.to.x, m.to.y, x, y);
      } else {
        assert false;
      }
    }
  }

  /**
   * When every plan from step k on moves, the last phase leaves exactly the
   * old flags plus the cells the landings loosen.
   */
  lemma {:induction false} SettleLoosens(w: World, plan: seq<Fall>, k: nat, threshold: nat)
    requires Valid(w) && PlanOnGrid(w.elements, plan) && k <= |plan|
    requires forall j | k <= j < |plan| :: Moves(plan[j])
    ensures var r := Settle(w, plan, k, threshold);
      forall x, y | w.elements.InBounds(x, y) ::
        r.active.At(x, y) == (w.active.At(x, y) || Loosened(w.elements, plan, k, x, y))
    decreases |plan| - k
  {
    if k < |plan| {
      var m := plan[k];
      assert Moves(m);
      var w' := LoosenNeighbors(w, m.to);
      var r := Settle(w', plan, k + 1, threshold);
      assert r == Settle(w, plan, k, threshold);
      SettleLoosens(w', plan, k + 1, threshold);
      assert w'.elements == w.elements;
      forall x, y | w.elements.InBounds(x, y)
        ensures r.active.At(x, y) == (w.active.At(x, y) || Loosened(w.elements, plan, k, x, y))
      {
        assert r.active.At(x, y) == (w'.active.At(x, y) || Loosened(w.elements, plan, k + 1, x, y));
        assert w'.active.At(x, y) == (w.active.At(x, y) || Loosenable(w.elements, m.to.x, m.to.y, x, y));
        if Loosened(w.elements, plan, k, x, y) {
          var j :| k <= j < |plan| && Moves(plan[j]) && Loosenable(w.elements, plan[j].to.x, plan[j].to.y, x, y);
          if j > k {
            assert Loosened(w.elements, plan, k + 1, x, y);
          }
        }
        if Loosened(w.elements, plan, k + 1, x, y) {
          var j :| k + 1 <= j < |plan| && Moves(plan[j]) && Loosenable(w.elements, plan[j].to.x, plan[j].to.y, x, y);
        }
      }
    } else {
      assert Settle(w, plan, k, threshold) == w;
    }
  }

  /** Every flag of r that a does not have lies near where some plan landed. */
  ghost predicate NearFlags(r: World, a: Grid<bool>, plan: seq<Fall>)
    requires Valid(r) && a.Valid() && SameShape(a, r.elements)
  {
    forall x, y | r.elements.InBounds(x, y) && r.active.At(x, y) && !a.At(x, y) :: NearLanding(plan, 0, Point(x, y))
  }

  /** Every moving plan's landing cell is active in r. */
  ghost predicate LandingsSet(r: World, plan: seq<Fall>)
    requires Valid(r)
  {
    forall m | m in Moving(plan) :: r.elements.InBounds(m.to.x, m.to.y) && r.active.At(m.to.x, m.to.y)
  }

  /** Every flag of r is a flag of a or a cell some moved plan loosens in r's elements. */
  ghost predicate LoosenedFlags(r: World, a: Grid<bool>, plan: seq<Fall>)
    requires Valid(r) && a.Valid() && SameShape(a, r.elements)
  {
    forall x, y | r.elements.InBounds(x, y) :: r.active.At(x, y) == (a.At(x, y) || Loosened(r.elements, plan, 0, x, y))
  }

  /**
   * The swap and settle phases for a given plan: a flag the swaps did not
   * leave set lies near a landing, and when every grain moves the elements
   * are the swapped ones and the flags are the swapped ones plus the cells
   * the landings loosen.
   */
  function Pass(w: World, plan: seq<Fall>, threshold: nat): (r: World)
    requires Valid(w) && PlanOnGrid(w.elements, plan)
    ensures Valid(r) && SameFrame(r, w) && PlanOnGrid(w.active, Moving(plan))
    ensures NearFlags(r, SwapFlags(w.active, Moving(plan)), plan)
    ensures (forall i | 0 <= i < |plan| :: Moves(plan[i])) ==>
      && r.elements == SwapAll(w.elements, Moving(plan))
      && LoosenedFlags(r, SwapFlags(w.active, Moving(plan)), plan)
  {
    MovingOnGrid(w, plan);
    var moved := Moving(plan);
    var w1 := SwapCellsAll(w, moved);
    var r := Settle(w1, plan, 0, threshold);
    SettleNear(w1, plan, 0, threshold);
    if forall i | 0 <= i < |plan| :: Moves(plan[i]) then
      SettleLoosens(w1, plan, 0, threshold);
      assert r.elements == w1.elements;
      assert LoosenedFlags(r, w1.active, plan);
      r
    else
      r
  }

  /** An empty plan leaves the world as it was. */
  lemma PassEmpty(w: World, threshold: nat)
    requires Valid(w)
    ensures Pass(w, [], threshold) == w
  {
    assert Moving([]) == [];
    assert SwapCellsAll(w, []) == w;
    assert Settle(w, [], 0, threshold) == w;
  }

  /** The moving plans lie on both grids of the world. */
  lemma MovingOnGrid(w: World, plan: seq<Fall>)
    requires Valid(w) && PlanOnGrid(w.elements, plan)
    ensures PlanOnGrid(w.elements, Moving(plan)) && PlanOnGrid(w.active, Moving(plan))
  {
  }

  /** The frame's plan: every active grain's target, judged before anything moves. */
  function FramePlan(w: World, coins: seq<bool>): (plan: seq<Fall>)
    requires Valid(w) && |coins| == |ActiveSands(w)|
    ensures plan == PlanAll(w.elements, ActiveSands(w), coins)
    ensures PlanOnGrid(w.elements, plan) && PlanOnGrid(w.active, Moving(plan))
  {
    PlanAll(w.elements, ActiveSands(w), coins)
  }

  /** One frame of the sand pass; `coins[i]` is the tie-break draw of the i-th active grain. */
  function SandGravity(w: World, threshold: nat, coins: seq<bool>): (r: World)
    requires Valid(w) && |coins| == |ActiveSands(w)|
    ensures Valid(r) && SameFrame(r, w)
    ensures var plan := FramePlan(w, coins);
      (forall i | 0 <= i < |plan| :: Moves(plan[i])) ==>
        r.elements == SwapAll(w.elements, Moving(plan)) && SandCount(r.elements) == SandCount(w.elements)
    ensures |ActiveSands(w)| == 0 ==> r == w
    ensures var plan := FramePlan(w, coins); NearFlags(r, SwapFlags(w.active, Moving(plan)), plan)
    ensures var plan := FramePlan(w, coins);
      (forall i | 0 <= i < |plan| :: Moves(plan[i])) ==>
        && LoosenedFlags(r, SwapFlags(w.active, Moving(plan)), plan)
        && LandingsSet(r, plan)
  {
    var locs := ActiveSands(w);
    var plan := FramePlan(w, coins);
    var r := Pass(w, plan, threshold);
    if |plan| == 0 then
      PassEmpty(w, threshold);
      r
    else if forall i | 0 <= i < |plan| :: Moves(plan[i]) then
      LandingsActive(w, plan, locs, coins);
      PassLandings(w, plan, threshold);
      r
    else
      r
  }

  /** When every grain moves, the landing cells the swaps left active stay active. */
  lemma PassLandings(w: World, plan: seq<Fall>, threshold: nat)
    requires Valid(w) && PlanOnGrid(w.elements, plan)
    requires forall i | 0 <= i < |plan| :: Moves(plan[i])
    requires forall m | m in Moving(plan) :: SwapFlags(w.active, Moving(plan)).At(m.to.x, m.to.y)
    ensures LandingsSet(Pass(w, plan, threshold), plan)
  {
    var r := Pass(w, plan, threshold);
    var a := SwapFlags(w.active, Moving(plan));
    assert LoosenedFlags(r, a, plan);
    forall m | m in Moving(plan) ensures r.elements.InBounds(m.to.x, m.to.y) && r.active.At(m.to.x, m.to.y) {
      assert r.elements.InBounds(m.to.x, m.to.y) && a.At(m.to.x, m.to.y);
    }
  }

  /** The swaps leave every moving grain's landing cell active. */
  lemma LandingsActive(w: World, plan: seq<Fall>, locs: seq<Point>, coins: seq<bool>)
    requires Valid(w) && locs == ActiveSands(w) && |coins| == |locs|
    requires plan == PlanAll(w.elements, locs, coins)
    ensures forall m | m in Moving(plan) :: SwapFlags(w.active, Moving(plan)).At(m.to.x, m.to.y)
  {
    var moved := Moving(plan);
    PlanDistinct(w, plan, locs, coins);
    MovingDistinct(plan);
    MovingOnGrid(w, plan);
    PlanSources(w, plan, locs, coins);
    SwapFlagsLands(w.active, w.elements, moved);
  }

  /** The frame's plans start from distinct cells, since the active grains are listed once each. */
  lemma PlanDistinct(w: World, plan: seq<Fall>, locs: seq<Point>, coins: seq<bool>)
    requires Valid(w) && locs == ActiveSands(w) && |coins| == |locs|
    requires plan == PlanAll(w.elements, locs, coins)
    ensures DistinctSources(plan)
  {
    forall i, j | 0 <= i < j < |plan| ensures plan[i].from != plan[j].from {
      assert Before(locs[i], locs[j]);
    }
  }

  /** Each moving plan of the frame starts on an active grain and ends on Air. */
  lemma PlanSources(w: World, plan: seq<Fall>, locs: seq<Point>, coins: seq<bool>)
    requires Valid(w) && locs == ActiveSands(w) && |coins| == |locs|
    requires plan == PlanAll(w.elements, locs, coins)
    requires PlanOnGrid(w.active, Moving(plan))
    ensures LooseSources(w.active, w.elements, Moving(plan))
  {
    forall m | m in Moving(plan)
      ensures w.active.At(m.from.x, m.from.y) && IsSand(w.elements, m.from.x, m.from.y)
      ensures IsAir(w.elements, m.to.x, m.to.y)
    {
      var i :| 0 <= i < |plan| && plan[i] == m;
      assert ActiveSand(w, locs[i]);
    }
  }

  /** An active ant whose footing has gone drops one row when the cell below is Air. */
  function FallAnt(ant: Ant, w: World): (a: Ant)
    requires Valid(w)
    ensures a == ant || a == ant.(location := Add(ant.location, Point(0, 1)))
    ensures a != ant <==> ant.active && AirAt(w, FootPoint(ant)) && AirAt(w, Add(ant.location, Point(0, 1)))
  {
    if ant.active && AirAt(w, FootPoint(ant)) && AirAt(w, Add(ant.location, Point(0, 1)))
    then ant.(location := Add(ant.location, Point(0, 1)))
    else ant
  }

  /** The ant pass: every ant on its own, none of them changing the world. */
  function AntGravity(ants: seq<Ant>, w: World): (r: seq<Ant>)
    requires Valid(w)
    ensures |r| == |ants|
    ensures forall i | 0 <= i < |ants| :: r[i] == FallAnt(ants[i], w)
    ensures forall i | 0 <= i < |ants| :: r[i].facing == ants[i].facing && r[i].angle == ants[i].angle
    ensures forall i | 0 <= i < |ants| && r[i].location != ants[i].location :: AirAt(w, r[i].location)
  {
    seq(|ants|, i requires 0 <= i < |ants| => FallAnt(ants[i], w))
  }

  /** The sand pass runs first, and the ants fall on the world it leaves. */
  function Gravity(w: World, ants: seq<Ant>, threshold: nat, coins: seq<bool>): (r: (World, seq<Ant>))
    requires Valid(w) && |coins| == |ActiveSands(w)|
    ensures Valid(r.0) && SameFrame(r.0, w) && |r.1| == |ants|
    ensures |ActiveSands(w)| == 0 ==> r.0 == w
    ensures var plan := FramePlan(w, coins);
      (forall i | 0 <= i < |plan| :: Moves(plan[i])) ==>
        r.0.elements == SwapAll(w.elements, Moving(plan)) && SandCount(r.0.elements) == SandCount(w.elements)
    ensures var plan := FramePlan(w, coins); NearFlags(r.0, SwapFlags(w.active, Moving(plan)), plan)
    ensures var plan := FramePlan(w, coins);
      (forall i | 0 <= i < |plan| :: Moves(plan[i])) ==>
        && LoosenedFlags(r.0, SwapFlags(w.active, Moving(plan)), plan)
        && LandingsSet(r.0, plan)
    ensures forall i | 0 <= i < |ants| ::
      r.1[i] == ants[i] || r.1[i] == ants[i].(location := Add(ants[i].location, Point(0, 1)))
    ensures forall i | 0 <= i < |ants| :: r.1[i].facing == ants[i].facing && r.1[i].angle == ants[i].angle
    ensures forall i | 0 <= i < |ants| && r.1[i].location != ants[i].location ::
      r.1[i].location == Add(ants[i].location, Point(0, 1)) && AirAt(r.0, r.1[i].location)
    ensures forall i | 0 <= i < |ants| :: r.1[i].location != ants[i].location <==>
      ants[i].active && AirAt(r.0, FootPoint(ants[i])) && AirAt(r.0, Add(ants[i].location, Point(0, 1)))
  {
    var w' := SandGravity(w, threshold, coins);
    (w', AntGravity(ants, w'))
  }
}

=== FILE: grid.dfy ===
/**
 * The bounded two-dimensional world that both versions of the ant farm work
 * on: rows of cells indexed `rows[y][x]`, with `y` growing downward, so
 * "below" is `y + 1`. Coordinates off the grid behave as a solid wall: they
 * are never Air and never Sand.
 */
module Grid {
  import opened Wrappers

  /** The three elements a cell can hold. */
  datatype Cell = Air | Dirt | Sand

  datatype Grid<T> = Grid(width: nat, height: nat, rows: seq<seq<T>>) {
    /** The rows match the stored dimensions. */
    predicate Valid() {
      |rows| == height && forall y | 0 <= y < |rows| :: |rows[y]| == width
    }

    predicate InBounds(x: int, y: int) {
      0 <= x < width && 0 <= y < height
    }

    function At(x: int, y: int): T
      requires Valid() && InBounds(x, y)
    {
      rows[y][x]
    }

    /** The content at (x, y), or None for a coordinate off the grid. */
    function Get(x: int, y: int): (r: Option<T>)
      requires Valid()
      ensures r.Some? <==> InBounds(x, y)
      ensures r.Some? ==> r.value == At(x, y)
    {
      if InBounds(x, y) then Some(rows[y][x]) else None
    }

    /** Writes one cell; every other cell and both dimensions are kept. */
    function Set(x: int, y: int, v: T): (g: Grid<T>)
      requires Valid() && InBounds(x, y)
      ensures g.Valid() && g.width == width && g.height == height
      ensures g.At(x, y) == v
      ensures forall i, j | InBounds(i, j) && (i != x || j != y) :: g.At(i, j) == At(i, j)
    {
      Grid(width, height, rows[y := rows[y][x := v]])
    }
  }

  /** A grid of `width` by `height` cells, all holding `v`. */
  function Fill<T>(width: nat, height: nat, v: T): (g: Grid<T>)
    ensures g.Valid() && g.width == width && g.height == height
    ensures forall x, y | g.InBounds(x, y) :: g.At(x, y) == v
  {
    Grid(width, height, seq(height, _ => seq(width, _ => v)))
  }

  predicate SameShape<T, U>(a: Grid<T>, b: Grid<U>) {
    a.width == b.width && a.height == b.height
  }

  /** An in-bounds Air cell; off-grid coordinates are not Air. */
  predicate IsAir(g: Grid<Cell>, x: int, y: int)
    requires g.Valid()
  {
    g.InBounds(x, y) && g.At(x, y) == Air
  }

  /** An in-bounds Sand cell; off-grid coordinates are not Sand. */
  predicate IsSand(g: Grid<Cell>, x: int, y: int)
    requires g.Valid()
  {
    g.InBounds(x, y) && g.At(x, y) == Sand
  }

  /** Exchanges the contents of two in-bounds cells. */
  function Swap<T>(g: Grid<T>, x1: int, y1: int, x2: int, y2: int): (r: Grid<T>)
    requires g.Valid() && g.InBounds(x1, y1) && g.InBounds(x2, y2)
    ensures r.Valid() && SameShape(r, g)
    ensures r.At(x1, y1) == g.At(x2, y2) && r.At(x2, y2) == g.At(x1, y1)
    ensures forall i, j | g.InBounds(i, j) && (i != x1 || j != y1) && (i != x2 || j != y2) :: r.At(i, j) == g.At(i, j)
  {
    g.Set(x1, y1, g.At(x2, y2)).Set(x2, y2, g.At(x1, y1))
  }

  /**
   * The length of the unbroken column of Sand that starts at (x, y) and runs
   * downward; a cell off the grid ends the run.
   */
  function SandRun(g: Grid<Cell>, x: int, y: int): (d: nat)
    requires g.Valid()
    ensures forall j | y <= j < y + d :: IsSand(g, x, j)
    ensures !IsSand(g, x, y + d)
    ensures d > 0 ==> IsSand(g, x, y + d - 1)
    decreases g.height - y
  {
    if IsSand(g, x, y) then 1 + SandRun(g, x, y + 1) else 0
  }

  // ----- counting Sand -----

  function Grain(c: Cell): nat {
    if c == Sand then 1 else 0
  }

  function RowSand(r: seq<Cell>): nat {
    if |r| == 0 then 0 else Grain(r[0]) + RowSand(r[1..])
  }

  function RowsSand(rs: seq<seq<Cell>>): nat {
    if |rs| == 0 then 0 else RowSand(rs[0]) + RowsSand(rs[1..])
  }

  /** The number of Sand cells on the grid. */
  function SandCount(g: Grid<Cell>): nat {
    RowsSand(g.rows)
  }

  lemma {:induction false} RowNoSand(r: seq<Cell>)
    requires forall i | 0 <= i < |r| :: r[i] != Sand
    ensures RowSand(r) == 0
    decreases |r|
  {
    if |r| > 0 {
      RowNoSand(r[1..]);
    }
  }

  lemma {:induction false} RowsNoSand(rs: seq<seq<Cell>>)
    requires forall j, i | 0 <= j < |rs| && 0 <= i < |rs[j]| :: rs[j][i] != Sand
    ensures RowsSand(rs) == 0
    decreases |rs|
  {
    if |rs| > 0 {
      RowNoSand(rs[0]);
      RowsNoSand(rs[1..]);
    }
  }

  /** A grid without a Sand cell counts no Sand. */
  lemma NoSandCount(g: Grid<Cell>)
    requires g.Valid()
    requires forall x, y | g.InBounds(x, y) :: g.At(x, y) != Sand
    ensures SandCount(g) == 0
  {
    forall j, i | 0 <= j < |g.rows| && 0 <= i < |g.rows[j]|
      ensures g.rows[j][i] != Sand
    {
      assert g.At(i, j) == g.rows[j][i];
    }
    RowsNoSand(g.rows);
  }

  lemma {:induction false} RowSandUpdate(r: seq<Cell>, x: nat, v: Cell)
    requires x < |r|
    ensures RowSand(r[x := v]) + Grain(r[x]) == RowSand(r) + Grain(v)
    decreases |r|
  {
    if x > 0 {
      assert r[x := v][1..] == r[1..][x - 1 := v];
      RowSandUpdate(r[1..], x - 1, v);
    } else {
      assert r[x := v][1..] == r[1..];
    }
  }

  lemma {:induction false} RowsSandUpdate(rs: seq<seq<Cell>>, y: nat, row: seq<Cell>)
    requires y < |rs|
    ensures RowsSand(rs[y := row]) + RowSand(rs[y]) == RowsSand(rs) + RowSand(row)
    decreases |rs|
  {
    if y > 0 {
      assert rs[y := row][1..] == rs[1..][y - 1 := row];
      RowsSandUpdate(rs[1..], y - 1, row);
    } else {
      assert rs[y := row][1..] == rs[1..];
    }
  }

  /** Writing a cell changes the Sand count by what was lost and what was written. */
  lemma SetSandCount(g: Grid<Cell>, x: int, y: int, v: Cell)
    requires g.Valid() && g.InBounds(x, y)
    ensures SandCount(g.Set(x, y, v)) + Grain(g.At(x, y)) == SandCount(g) + Grain(v)
  {
    RowSandUpdate(g.rows[y], x, v);
    RowsSandUpdate(g.rows, y, g.rows[y][x := v]);
  }

  /** Exchanging two cells never changes how much Sand there is. */
  lemma SwapSandCount(g: Grid<Cell>, x1: int, y1: int, x2: int, y2: int)
    requires g.Valid() && g.InBounds(x1, y1) && g.InBounds(x2, y2)
    ensures SandCount(Swap(g, x1, y1, x2, y2)) == SandCount(g)
  {
    var g1 := g.Set(x1, y1, g.At(x2, y2));
    SetSandCount(g, x1, y1, g.At(x2, y2));
    SetSandCount(g1, x2, y2, g.At(x1, y1));
  }

  // ----- the 5x5 neighbourhood that loosening scans -----

  /**
   * The k-th cell of the 5x5 window around a centre, as (dx, dy), in the
   * order the C source visits it: the row two below the centre first and
   * the row two above it last, each row from left to right.
   */
  function WindowOffset(k: nat): (p: (int, int))
    requires k < 25
    ensures -2 <= p.0 <= 2 && -2 <= p.1 <= 2
  {
    (k % 5 - 2, 2 - k / 5)
  }

  /** Every offset of the 5x5 window is visited by some step of the scan. */
  lemma WindowCovers(dx: int, dy: int)
    requires -2 <= dx <= 2 && -2 <= dy <= 2
    ensures exists k :: 0 <= k < 25 && WindowOffset(k) == (dx, dy)
  {
    var k := (dx + 2) + 5 * (2 - dy);
    assert WindowOffset(k) == (dx, dy);
  }

  /**
   * A cell that loosening around (xc, yc) wakes up: an in-bounds Sand cell
   * at most two steps away on each axis, other than the centre itself.
   */
  predicate Loosenable(g: Grid<Cell>, xc: int, yc: int, x: int, y: int)
    requires g.Valid()
  {
    -2 <= x - xc <= 2 && -2 <= y - yc <= 2 && (x != xc || y != yc) && IsSand(g, x, y)
  }

  /** Step j of the 25-step scan around (xc, yc) visits (a, b). */
  predicate Visits(j: nat, xc: int, yc: int, a: int, b: int)
    requires j < 25
  {
    a == xc + WindowOffset(j).0 && b == yc + WindowOffset(j).1
  }

  /**
   * The cells a loosening scan around (xc, yc) wakes up from step k of its
   * 25 steps on.
   */
  predicate ScanHit(g: Grid<Cell>, xc: int, yc: int, k: nat, a: int, b: int)
    requires g.Valid()
  {
    (a != xc || b != yc) && IsSand(g, a, b) && exists j | k <= j < 25 :: Visits(j, xc, yc, a, b)
  }

  lemma ScanHitStep(g: Grid<Cell>, xc: int, yc: int, k: nat)
    requires g.Valid() && k < 25
    ensures forall a, b :: ScanHit(g, xc, yc, k, a, b) <==>
      ScanHit(g, xc, yc, k + 1, a, b) || ((a != xc || b != yc) && IsSand(g, a, b) && Visits(k, xc, yc, a, b))
  {
    forall a, b | ScanHit(g, xc, yc, k, a, b) && !Visits(k, xc, yc, a, b)
      ensures ScanHit(g, xc, yc, k + 1, a, b)
    {
      var j :| k <= j < 25 && Visits(j, xc, yc, a, b);
      assert j != k;
    }
  }

  lemma ScanHitWindow(g: Grid<Cell>, xc: int, yc: int)
    requires g.Valid()
    ensures forall a, b :: ScanHit(g, xc, yc, 0, a, b) <==> Loosenable(g, xc, yc, a, b)
  {
    forall a, b | Loosenable(g, xc, yc, a, b)
      ensures ScanHit(g, xc, yc, 0, a, b)
    {
      WindowCovers(a - xc, b - yc);
      var j :| 0 <= j < 25 && WindowOffset(j) == (a - xc, b - yc);
      assert Visits(j, xc, yc, a, b);
    }
  }
}

=== FILE: move_ants.dfy ===
/**
 * The TypeScript port's ant behaviour (`moveAnts.ts`). Each ant counts its
 * timer down; when it fires the ant checks its footing, then digs, turns,
 * wanders, drops or carries. Ants are processed in order and each sees the
 * elements its predecessors changed; the ants themselves come back as a new
 * list. Every `Math.random()` test is an explicit boolean, and every random
 * choice among n is an explicit natural number taken modulo n.
 */
module AntSystem {
  import opened Grid
  import opened Points
  import opened Pose
  import opened Tiles

  datatype Behavior = Wandering | Carrying

  datatype Ant = Ant(location: Point, facing: Facing, angle: Angle, behavior: Behavior, timer: int, active: bool)

  /** The random draws one ant's decision may consult. */
  datatype Draws = Draws(
    randomDig: bool, randomTurn: bool, randomDrop: bool,
    belowSurfaceDig: bool, aboveSurfaceDrop: bool,
    pick: nat, spin: nat, jitter: Unit, rejitter: Unit)

  datatype Tick = Tick(ant: Ant, world: World)

  function TimingFactor(b: Behavior): int {
    match b
    case Wandering => 4
    case Carrying => 5
  }

  /** A result of `Math.random()`. */
  type Unit = u: real | 0.0 <= u < 1.0

  /**
   * The number `getTimer` computes from a draw u: the timing factor plus
   * `u % 3`, which is u itself, minus one.
   */
  function TimerValue(b: Behavior, u: Unit): real {
    TimingFactor(b) as real + u - 1.0
  }

  /**
   * A fresh timer, kept as the least integer not below `TimerValue`: the
   * timing factor, or one less when the draw is exactly zero.
   */
  function GetTimer(b: Behavior, u: Unit): (t: int)
    ensures t as real - 1.0 < TimerValue(b, u) <= t as real
    ensures TimingFactor(b) - 1 <= t <= TimingFactor(b)
  {
    if u == 0.0 then TimingFactor(b) - 1 else TimingFactor(b)
  }

  /**
   * An integer timer that is the ceiling of the real one is still positive
   * after exactly as many decrements, so it fires on the same tick.
   */
  lemma TimerFiresAlike(b: Behavior, u: Unit, k: nat)
    ensures GetTimer(b, u) - k > 0 <==> TimerValue(b, u) - k as real > 0.0
  {
  }

  function PoseOf(ant: Ant): Pose {
    Pose(ant.facing, ant.angle)
  }

  function WithPose(ant: Ant, p: Pose): Ant {
    ant.(facing := p.facing, angle := p.angle)
  }

  /** The point one step from the ant at the given angle. */
  function StepAt(ant: Ant, angle: Angle): Point {
    Add(ant.location, Delta(ant.facing, angle))
  }

  function FootPoint(ant: Ant): Point {
    StepAt(ant, Rotate(ant.angle, 1))
  }

  /** The ant stands in Air and the cell under its feet is not Air. */
  predicate IsValidLocation(ant: Ant, w: World)
    requires Valid(w)
  {
    AirAt(w, ant.location) && !AirAt(w, FootPoint(ant))
  }

  /** Nothing but the pose differs. */
  predicate OnlyPoseChanged(a: Ant, b: Ant) {
    b == WithPose(a, PoseOf(b))
  }

  /**
   * Leaves Sand in the ant's own cell, marks it loose and goes back to
   * wandering, but only when that cell is Air; otherwise nothing changes.
   */
  function Drop(ant: Ant, w: World, jitter: Unit): (r: Tick)
    requires Valid(w)
    ensures Valid(r.world) && SameFrame(r.world, w)
    ensures !AirAt(w, ant.location) ==> r == Tick(ant, w)
    ensures AirAt(w, ant.location) ==>
      && r.world.elements == w.elements.Set(ant.location.x, ant.location.y, Sand)
      && r.world.active == w.active.Set(ant.location.x, ant.location.y, true)
      && r.ant == ant.(behavior := Wandering, timer := r.ant.timer)
      && 3 <= r.ant.timer <= 4
  {
    if AirAt(w, ant.location) then
      var w' := SetActive(SetElement(w, ant.location, Sand), ant.location, true);
      Tick(ant.(behavior := Wandering, timer := GetTimer(Wandering, jitter)), w')
    else
      Tick(ant, w)
  }

  /** Where `dig` aims: ahead, or under the feet when not forced forward. */
  function DigPoint(ant: Ant, forced: bool): Point {
    StepAt(ant, if forced then ant.angle else Rotate(ant.angle, 1))
  }

  /**
   * Digs out the target cell when it holds Dirt or Sand: it becomes Air, the
   * sand around it is loosened, and the ant starts carrying without moving
   * or turning. Otherwise nothing changes.
   */
  function Dig(ant: Ant, forced: bool, w: World, jitter: Unit): (r: Tick)
    requires Valid(w)
    ensures Valid(r.world) && SameFrame(r.world, w)
    ensures var p := DigPoint(ant, forced);
      !SolidAt(w, p) ==> r == Tick(ant, w)
    ensures var p := DigPoint(ant, forced);
      SolidAt(w, p) ==>
        && r.world.elements == w.elements.Set(p.x, p.y, Air)
        && (forall i, j | w.elements.InBounds(i, j) ::
              r.world.active.At(i, j) == (w.active.At(i, j) || Loosenable(r.world.elements, p.x, p.y, i, j)))
        && r.ant == ant.(behavior := Carrying, timer := r.ant.timer)
        && 4 <= r.ant.timer <= 5
  {
    var p := DigPoint(ant, forced);
    if SolidAt(w, p) then
      var w' := LoosenNeighbors(SetElement(w, p, Air), p);
      Tick(ant.(behavior := Carrying, timer := GetTimer(Carrying, jitter)), w')
    else
      Tick(ant, w)
  }

  /** The poses of `FacingAngles` from index k on, other than the ant's own, that are valid where it stands. */
  function ValidPosesFrom(ant: Ant, w: World, k: nat): (r: seq<Pose>)
    requires Valid(w) && k <= |FacingAngles|
    ensures forall p :: p in r <==>
      p in FacingAngles[k..] && p != PoseOf(ant) && IsValidLocation(WithPose(ant, p), w)
    decreases |FacingAngles| - k
  {
    if k == |FacingAngles| then []
    else
      var p := FacingAngles[k];
      assert FacingAngles[k..] == [p] + FacingAngles[k + 1..];
      var rest := ValidPosesFrom(ant, w, k + 1);
      if p != PoseOf(ant) && IsValidLocation(WithPose(ant, p), w) then [p] + rest else rest
  }

  function ValidPoses(ant: Ant, w: World): (r: seq<Pose>)
    requires Valid(w)
    ensures forall p :: p in r <==> p != PoseOf(ant) && IsValidLocation(WithPose(ant, p), w)
  {
    forall p: Pose ensures p in FacingAngles { FacingAnglesComplete(p); }
    assert FacingAngles[0..] == FacingAngles;
    ValidPosesFrom(ant, w, 0)
  }

  /** Neither back turn works and no other pose is valid. */
  predicate Trapped(ant: Ant, w: World)
    requires Valid(w)
  {
    && !IsValidLocation(ant.(angle := Rotate(ant.angle, -1)), w)
    && !IsValidLocation(ant.(angle := Rotate(ant.angle, -2)), w)
    && |ValidPoses(ant, w)| == 0
  }

  /**
   * Turns in place: toward the back if valid, else about-face, else a random
   * valid pose other than the current one. A trapped ant drops what it
   * carries when it stands in Air, then takes a random pose.
   */
  function Turn(ant: Ant, w: World, d: Draws): (r: Tick)
    requires Valid(w)
    ensures Valid(r.world) && SameFrame(r.world, w)
    ensures r.ant.location == ant.location
    ensures IsValidLocation(ant.(angle := Rotate(ant.angle, -1)), w) ==>
      r == Tick(ant.(angle := Rotate(ant.angle, -1)), w)
    ensures !IsValidLocation(ant.(angle := Rotate(ant.angle, -1)), w) && IsValidLocation(ant.(angle := Rotate(ant.angle, -2)), w) ==>
      r == Tick(ant.(angle := Rotate(ant.angle, -2)), w)
    ensures (exists p :: p != PoseOf(ant) && IsValidLocation(WithPose(ant, p), w)) ==>
      r.world == w && OnlyPoseChanged(ant, r.ant) && IsValidLocation(r.ant, w)
    ensures (&& !IsValidLocation(ant.(angle := Rotate(ant.angle, -1)), w)
             && !IsValidLocation(ant.(angle := Rotate(ant.angle, -2)), w)
             && |ValidPoses(ant, w)| > 0) ==>
        && r == Tick(WithPose(ant, ValidPoses(ant, w)[d.pick % |ValidPoses(ant, w)|]), w)
        && PoseOf(r.ant) != PoseOf(ant)
    ensures r.world != w ==> Trapped(ant, w) && ant.behavior == Carrying && AirAt(w, ant.location)
    ensures Trapped(ant, w) ==> r.ant.facing == FacingAngles[d.spin % 8].facing && r.ant.angle == FacingAngles[d.spin % 8].angle
    ensures Trapped(ant, w) && ant.behavior == Carrying ==> r.world == Drop(ant, w, d.rejitter).world
    ensures Trapped(ant, w) && ant.behavior == Carrying && AirAt(w, ant.location) ==>
      r == Tick(WithPose(Drop(ant, w, d.rejitter).ant, FacingAngles[d.spin % 8]), Drop(ant, w, d.rejitter).world)
    ensures Trapped(ant, w) && !(ant.behavior == Carrying && AirAt(w, ant.location)) ==>
      r == Tick(WithPose(ant, FacingAngles[d.spin % 8]), w)
  {
    var back := ant.(angle := Rotate(ant.angle, -1));
    var around := ant.(angle := Rotate(ant.angle, -2));
    if IsValidLocation(back, w) then Tick(back, w)
    else if IsValidLocation(around, w) then Tick(around, w)
    else
      var valid := ValidPoses(ant, w);
      if |valid| > 0 then
        assert valid[d.pick % |valid|] in valid;
        Tick(WithPose(ant, valid[d.pick % |valid|]), w)
      else
        assert valid == [];
        var t := if ant.behavior == Carrying && AirAt(w, ant.location) then Drop(ant, w, d.rejitter) else Tick(ant, w);
        Tick(WithPose(t.ant, FacingAngles[d.spin % 8]), t.world)
  }

  /**
   * One step at the current pose. Off the grid, or against a cell the ant
   * will not dig, it turns. A wanderer strictly below the surface digs into
   * sand always and into dirt when the draw says so. Over a gap it steps
   * around the corner under its would-be feet, rotating toward them, unless
   * a carrier at or above the surface drops its load there instead.
   */
  function Move(ant: Ant, w: World, d: Draws): (r: Tick)
    requires Valid(w)
    ensures Valid(r.world) && SameFrame(r.world, w)
    ensures !WithinBounds(w, StepAt(ant, ant.angle)) ==> r == Turn(ant, w, d)
    ensures var n := StepAt(ant, ant.angle);
      SolidAt(w, n) ==>
        r == if ant.behavior == Wandering && ant.location.y > w.surfaceLevel
                && (w.elements.At(n.x, n.y) == Sand || d.belowSurfaceDig)
             then Dig(ant, true, w, d.rejitter) else Turn(ant, w, d)
    ensures r.ant.location != ant.location ==> AirAt(r.world, r.ant.location)
    ensures var n := StepAt(ant, ant.angle);
      AirAt(w, n) && !AirAt(w, Add(n, Delta(ant.facing, Rotate(ant.angle, 1)))) ==>
        r == Tick(ant.(location := n), w)
    ensures var n := StepAt(ant, ant.angle);
      var f := Add(n, Delta(ant.facing, Rotate(ant.angle, 1)));
      AirAt(w, n) && AirAt(w, f) ==>
        if ant.behavior == Carrying && ant.location.y <= w.surfaceLevel && d.aboveSurfaceDrop
        then r == Drop(ant, w, d.rejitter)
        else r == Tick(ant.(location := f, angle := Rotate(ant.angle, 1)), w)
  {
    var n := StepAt(ant, ant.angle);
    if !WithinBounds(w, n) then Turn(ant, w, d)
    else if SolidAt(w, n) then
      if ant.behavior == Wandering && ant.location.y > w.surfaceLevel
         && (w.elements.At(n.x, n.y) == Sand || d.belowSurfaceDig)
      then Dig(ant, true, w, d.rejitter) else Turn(ant, w, d)
    else
      var footAngle := Rotate(ant.angle, 1);
      var f := Add(n, Delta(ant.facing, footAngle));
      if AirAt(w, f) then
        if ant.behavior == Carrying && ant.location.y <= w.surfaceLevel && d.aboveSurfaceDrop
        then Drop(ant, w, d.rejitter)
        else Tick(ant.(location := f, angle := footAngle), w)
      else
        Tick(ant.(location := n), w)
  }

  /** Restarts the wandering timer and walks on. */
  function Wander(ant: Ant, w: World, d: Draws): Tick
    requires Valid(w)
  {
    Move(ant.(behavior := Wandering, timer := GetTimer(Wandering, d.jitter)), w, d)
  }

  /** Restarts the carrying timer and walks on. */
  function Carry(ant: Ant, w: World, d: Draws): Tick
    requires Valid(w)
  {
    Move(ant.(behavior := Carrying, timer := GetTimer(Carrying, d.jitter)), w, d)
  }

  /**
   * One tick for one ant. The timer counts down; when it runs out and the
   * ground under its feet has gone the ant stays put (falling is the
   * gravity system's job) or, when it could not fall anyway, turns.
   */
  function MoveAnt(ant: Ant, w: World, d: Draws): (r: Tick)
    requires Valid(w)
    ensures Valid(r.world) && SameFrame(r.world, w)
    ensures ant.timer - 1 > 0 ==> r == Tick(ant.(timer := ant.timer - 1), w)
    ensures var m := ant.(timer := ant.timer - 1);
      m.timer <= 0 && AirAt(w, FootPoint(m)) ==>
        if AirAt(w, Add(ant.location, Point(0, 1))) then r == Tick(m, w) else r == Turn(m, w, d)
    ensures var m := ant.(timer := ant.timer - 1);
      m.timer <= 0 && !AirAt(w, FootPoint(m)) ==>
        && (m.behavior == Wandering && d.randomDig ==> r == Dig(m, false, w, d.jitter))
        && (m.behavior == Wandering && !d.randomDig && d.randomTurn ==> r == Turn(m, w, d))
        && (m.behavior == Wandering && !d.randomDig && !d.randomTurn ==> r == Wander(m, w, d))
        && (m.behavior == Carrying && d.randomDrop ==> r == Drop(m, w, d.jitter))
        && (m.behavior == Carrying && !d.randomDrop ==> r == Carry(m, w, d))
    ensures r.ant.location != ant.location ==> AirAt(r.world, r.ant.location)
  {
    var m := ant.(timer := ant.timer - 1);
    if m.timer > 0 then Tick(m, w)
    else if AirAt(w, FootPoint(m)) then
      if AirAt(w, Add(m.location, Point(0, 1))) then Tick(m, w) else Turn(m, w, d)
    else
      match m.behavior
      case Wandering =>
        if d.randomDig then Dig(m, false, w, d.jitter)
        else if d.randomTurn then Turn(m, w, d)
        else Wander(m, w, d)
      case Carrying =>
        if d.randomDrop then Drop(m, w, d.jitter) else Carry(m, w, d)
  }

  /** The world after the first k ants of the list have ticked, in order. */
  function WorldAfter(ants: seq<Ant>, w: World, draws: seq<Draws>, k: nat): (r: World)
    requires Valid(w) && |draws| == |ants| && k <= |ants|
    ensures Valid(r) && SameFrame(r, w)
    decreases k
  {
    if k == 0 then w
    else MoveAnt(ants[k - 1], WorldAfter(ants, w, draws, k - 1), draws[k - 1]).world
  }

  /** Ticking the first ant, then the first k of the rest, is ticking the first k + 1. */
  lemma {:induction false} WorldAfterShift(ants: seq<Ant>, w: World, draws: seq<Draws>, k: nat)
    requires Valid(w) && |draws| == |ants| && k < |ants|
    ensures WorldAfter(ants, w, draws, k + 1) == WorldAfter(ants[1..], MoveAnt(ants[0], w, draws[0]).world, draws[1..], k)
    decreases k
  {
    if k > 0 {
      WorldAfterShift(ants, w, draws, k - 1);
      assert ants[1..][k - 1] == ants[k] && draws[1..][k - 1] == draws[k];
    }
  }

  /** The i-th ant after its tick, taken on the world the ants before it left. */
  function Ticked(ants: seq<Ant>, w: World, draws: seq<Draws>, i: nat): Ant
    requires Valid(w) && |draws| == |ants| && i < |ants|
  {
    MoveAnt(ants[i], WorldAfter(ants, w, draws, i), draws[i]).ant
  }

  lemma TickedShift(ants: seq<Ant>, w: World, draws: seq<Draws>, i: nat)
    requires Valid(w) && |draws| == |ants| && 0 < i < |ants|
    ensures Ticked(ants, w, draws, i) == Ticked(ants[1..], MoveAnt(ants[0], w, draws[0]).world, draws[1..], i - 1)
  {
    WorldAfterShift(ants, w, draws, i - 1);
    var w1 := WorldAfter(ants, w, draws, i);
    var w2 := WorldAfter(ants[1..], MoveAnt(ants[0], w, draws[0]).world, draws[1..], i - 1);
    assert w1 == w2;
    assert ants[1..][i - 1] == ants[i] && draws[1..][i - 1] == draws[i];
  }

  /**
   * Every ant's tick, in order, each on the world its predecessors left. The
   * result holds the new ants, one per input ant in the same order, and the
   * world after all of them.
   */
  function MoveAnts(ants: seq<Ant>, w: World, draws: seq<Draws>): (r: (seq<Ant>, World))
    requires Valid(w) && |draws| == |ants|
    ensures |r.0| == |ants| && Valid(r.1) && SameFrame(r.1, w)
    ensures forall i | 0 <= i < |ants| :: r.0[i] == Ticked(ants, w, draws, i)
    ensures r.1 == WorldAfter(ants, w, draws, |ants|)
    decreases |ants|
  {
    if |ants| == 0 then ([], w)
    else
      var t := MoveAnt(ants[0], w, draws[0]);
      var rest := MoveAnts(ants[1..], t.world, draws[1..]);
      var r := ([t.ant] + rest.0, rest.1);
      assert r.1 == WorldAfter(ants, w, draws, |ants|) by {
        WorldAfterShift(ants, w, draws, |ants| - 1);
      }
      assert forall i | 0 <= i < |ants| :: r.0[i] == Ticked(ants, w, draws, i) by {
        forall i | 0 <= i < |ants|
          ensures r.0[i] == Ticked(ants, w, draws, i)
        {
          if i > 0 {
            TickedShift(ants, w, draws, i);
            assert r.0[i] == rest.0[i - 1];
          }
        }
      }
      r
  }

  /** An ant whose timer is still counting down only counts down, whatever the ants before it did. */
  lemma MoveAntsCountdown(ants: seq<Ant>, w: World, draws: seq<Draws>)
    requires Valid(w) && |draws| == |ants|
    ensures var r := MoveAnts(ants, w, draws);
      forall i | 0 <= i < |ants| && ants[i].timer > 1 :: r.0[i] == ants[i].(timer := ants[i].timer - 1)
  {
    var r := MoveAnts(ants, w, draws);
    forall i | 0 <= i < |ants| && ants[i].timer > 1
      ensures r.0[i] == ants[i].(timer := ants[i].timer - 1)
    {
      assert r.0[i] == Ticked(ants, w, draws, i);
    }
  }

  // ---------------------------------------------------------------------
  // Partner properties

  /** Dropping twice in a row drops once: the second finds its cell full. */
  lemma DropIdempotent(ant: Ant, w: World, j1: Unit, j2: Unit)
    requires Valid(w)
    ensures var t := Drop(ant, w, j1); Drop(t.ant, t.world, j2) == t
  {
  }

  /** Digging the same cell twice digs once: the second finds it empty. */
  lemma DigIdempotent(ant: Ant, forced: bool, w: World, j1: Unit, j2: Unit)
    requires Valid(w)
    ensures var t := Dig(ant, forced, w, j1); Dig(t.ant, forced, t.world, j2) == t
  {
    var t := Dig(ant, forced, w, j1);
    assert DigPoint(t.ant, forced) == DigPoint(ant, forced);
  }
}

=== FILE: points.dfy ===
/** The TypeScript port's integer grid points and their vector sum. */
module Points {
  datatype Point = Point(x: int, y: int)

  const Origin := Point(0, 0)

  function Add(a: Point, b: Point): Point {
    Point(a.x + b.x, a.y + b.y)
  }

  lemma AddComponents(a: Point, b: Point)
    ensures Add(a, b).x == a.x + b.x && Add(a, b).y == a.y + b.y
  {
  }

  lemma AddCommutes(a: Point, b: Point)
    ensures Add(a, b) == Add(b, a)
  {
  }

  lemma AddAssociates(a: Point, b: Point, c: Point)
    ensures Add(Add(a, b), c) == Add(a, Add(b, c))
  {
  }

  lemma OriginIsIdentity(a: Point)
    ensures Add(a, Origin) == a && Add(Origin, a) == a
  {
  }
}

=== FILE: pose.dfy ===
/**
 * The TypeScript port's ant pose: which way the ant faces and the angle its
 * body is rotated by. The rotation, step and pose-list helpers it relies on
 * are defined here from the C direction tables: each of the eight poses is
 * one C direction, rotating the angle by +1 turns toward the feet (C
 * `foot_dir`) and by -1 toward the back (C `back_dir`).
 */
module Pose {
  import opened Points
  import opened Directions

  datatype Facing = Left | Right

  datatype Angle = A0 | A90 | A180 | A270

  datatype Pose = Pose(facing: Facing, angle: Angle)

  function AngleIndex(a: Angle): (i: nat)
    ensures i < 4
  {
    match a
    case A0 => 0
    case A90 => 1
    case A180 => 2
    case A270 => 3
  }

  function AngleAt(i: nat): (a: Angle)
    requires i < 4
    ensures AngleIndex(a) == i
  {
    if i == 0 then A0 else if i == 1 then A90 else if i == 2 then A180 else A270
  }

  /** Rotates by `steps` quarter turns; a positive step goes 0, 270, 180, 90, ... */
  function Rotate(a: Angle, steps: int): (r: Angle)
    ensures AngleIndex(r) == (AngleIndex(a) - steps) % 4
  {
    AngleAt((AngleIndex(a) - steps) % 4)
  }

  /**
   * The unit step of a pose. Facing right at angle 0 walks right along the
   * floor; each +90 degrees tilts the walk a quarter turn upward, facing
   * left mirrors it horizontally.
   */
  function Delta(facing: Facing, angle: Angle): Point {
    match (facing, angle)
    case (Right, A0) => Point(1, 0)
    case (Right, A90) => Point(0, -1)
    case (Right, A180) => Point(-1, 0)
    case (Right, A270) => Point(0, 1)
    case (Left, A0) => Point(-1, 0)
    case (Left, A90) => Point(0, -1)
    case (Left, A180) => Point(1, 0)
    case (Left, A270) => Point(0, 1)
  }

  /** The C direction a pose stands for. */
  function PoseDir(p: Pose): Dir {
    match (p.facing, p.angle)
    case (Right, A0) => 2
    case (Right, A90) => 4
    case (Right, A180) => 1
    case (Right, A270) => 7
    case (Left, A0) => 0
    case (Left, A90) => 5
    case (Left, A180) => 3
    case (Left, A270) => 6
  }

  function DirPose(d: Dir): (p: Pose)
    ensures PoseDir(p) == d
  {
    if d == 0 then Pose(Left, A0)
    else if d == 1 then Pose(Right, A180)
    else if d == 2 then Pose(Right, A0)
    else if d == 3 then Pose(Left, A180)
    else if d == 4 then Pose(Right, A90)
    else if d == 5 then Pose(Left, A90)
    else if d == 6 then Pose(Left, A270)
    else Pose(Right, A270)
  }

  /** Poses and C directions correspond one to one. */
  lemma PoseDirBijective(p: Pose, q: Pose)
    ensures DirPose(PoseDir(p)) == p
    ensures PoseDir(p) == PoseDir(q) <==> p == q
  {
  }

  /** A pose steps exactly as its C direction does. */
  lemma DeltaMatchesDir(p: Pose)
    ensures Delta(p.facing, p.angle) == Point(DX(PoseDir(p)), DY(PoseDir(p)))
  {
  }

  /** Rotating by +1 turns toward the feet, by -1 toward the back, as the C tables do. */
  lemma RotateMatchesTables(p: Pose)
    ensures PoseDir(Pose(p.facing, Rotate(p.angle, 1))) == FootDir(PoseDir(p))
    ensures PoseDir(Pose(p.facing, Rotate(p.angle, -1))) == BackDir(PoseDir(p))
  {
    match p.angle
    case A0 => assert Rotate(A0, 1) == A270 && Rotate(A0, -1) == A90;
    case A90 => assert Rotate(A90, 1) == A0 && Rotate(A90, -1) == A180;
    case A180 => assert Rotate(A180, 1) == A90 && Rotate(A180, -1) == A270;
    case A270 => assert Rotate(A270, 1) == A180 && Rotate(A270, -1) == A0;
  }

  /** Rotating by -2 is the C "back of the back" direction. */
  lemma RotateTwiceBack(p: Pose)
    ensures PoseDir(Pose(p.facing, Rotate(p.angle, -2))) == BackDir(BackDir(PoseDir(p)))
  {
    match p.angle
    case A0 => assert Rotate(A0, -2) == A180;
    case A90 => assert Rotate(A90, -2) == A270;
    case A180 => assert Rotate(A180, -2) == A0;
    case A270 => assert Rotate(A270, -2) == A90;
  }

  /** All eight poses: facing left at 0, 90, 180 and 270 degrees, then facing right. */
  const FacingAngles: seq<Pose> := [
    Pose(Left, A0), Pose(Left, A90), Pose(Left, A180), Pose(Left, A270),
    Pose(Right, A0), Pose(Right, A90), Pose(Right, A180), Pose(Right, A270)]

  lemma FacingAnglesComplete(p: Pose)
    ensures p in FacingAngles
    ensures forall i, j | 0 <= i < j < |FacingAngles| :: FacingAngles[i] != FacingAngles[j]
  {
    var k := (if p.facing == Left then 0 else 4) + AngleIndex(p.angle);
    assert FacingAngles[k] == p;
  }
}

=== FILE: prototype.dfy ===
/**
 * The first TypeScript prototype of the ant loop (`World.tsx`), before the
 * world had cells: ants walk four pixels per step inside a width by height
 * box, turn around at its left and right edges, and the dig, drop and carry
 * actions are placeholders. Positions and timers are JavaScript numbers and
 * may be fractional, so they are reals. A fresh wandering timer is
 * `getTimer`'s number for the `Math.random()` draw that is passed in.
 */
module Prototype {
  import AntSystem
  datatype Behavior = Wandering | Carrying | Panic

  datatype Heading = Left | Right | Up | Down

  /** The ant record the prototype works on. */
  datatype Ant = Ant(x: real, y: real, behavior: Behavior, direction: Heading, timer: real, phase: int)

  /** The step for a heading: four pixels along one axis. */
  function Delta(d: Heading): (r: (real, real))
    ensures (r.0 == 0.0) != (r.1 == 0.0)
    ensures r.0 == 4.0 || r.0 == -4.0 || r.1 == 4.0 || r.1 == -4.0
    ensures d == Left || d == Right <==> r.1 == 0.0
  {
    match d
    case Left => (-4.0, 0.0)
    case Right => (4.0, 0.0)
    case Up => (0.0, -4.0)
    case Down => (0.0, 4.0)
  }

  /** A point of the box [0, width) by [0, height). */
  predicate InWorld(x: real, y: real, width: real, height: real) {
    0.0 <= x < width && 0.0 <= y < height
  }

  /** Only a left or right heading turns round; the rest of the ant is kept. */
  function Turn(a: Ant): (r: Ant)
    ensures r.x == a.x && r.y == a.y && r.timer == a.timer && r.behavior == a.behavior && r.phase == a.phase
    ensures a.direction == Left <==> r.direction == Right
    ensures a.direction == Right <==> r.direction == Left
    ensures a.direction == Up || a.direction == Down ==> r == a
    ensures a.direction != Up && a.direction != Down ==> Delta(r.direction).0 == -Delta(a.direction).0
  {
    if a.direction == Right then a.(direction := Left)
    else if a.direction == Left then a.(direction := Right)
    else a
  }

  /** A step that would leave the box turns the ant instead. */
  function Move(a: Ant, width: real, height: real): (r: Ant)
    ensures r.timer == a.timer && r.behavior == a.behavior && r.phase == a.phase
    ensures var (dx, dy) := Delta(a.direction);
      if InWorld(a.x + dx, a.y + dy, width, height)
      then r.x == a.x + dx && r.y == a.y + dy && r.direction == a.direction
      else r == Turn(a)
    ensures InWorld(a.x, a.y, width, height) ==> InWorld(r.x, r.y, width, height)
  {
    var (dx, dy) := Delta(a.direction);
    var nx := a.x + dx;
    var ny := a.y + dy;
    if nx < 0.0 || nx >= width || ny < 0.0 || ny >= height then Turn(a)
    else a.(x := nx, y := ny)
  }

  /** A wandering ant takes a fresh wandering timer, then moves. */
  function Wander(a: Ant, width: real, height: real, draw: AntSystem.Unit): (r: Ant)
    ensures r.timer == AntSystem.TimerValue(AntSystem.Wandering, draw) && 3.0 <= r.timer < 4.0
    ensures r.behavior == a.behavior && r.phase == a.phase
    ensures var (dx, dy) := Delta(a.direction);
      if InWorld(a.x + dx, a.y + dy, width, height)
      then r.x == a.x + dx && r.y == a.y + dy && r.direction == a.direction
      else r.x == a.x && r.y == a.y && r.direction == Turn(a).direction
    ensures InWorld(a.x, a.y, width, height) ==> InWorld(r.x, r.y, width, height)
  {
    Move(a.(timer := AntSystem.TimerValue(AntSystem.Wandering, draw)), width, height)
  }

  function Dig(a: Ant): Ant { a }

  function Drop(a: Ant): Ant { a }

  function Carry(a: Ant): Ant { a }

  /**
   * One ant's tick: the timer counts down; only a wandering ant whose timer
   * has run out acts. A carrying ant either drops or carries, and both
   * leave it as it is; a panicking ant is returned unchanged.
   */
  function MoveAnt(a: Ant, width: real, height: real, draw: AntSystem.Unit, dropRoll: real): (r: Ant)
    ensures a.timer - 1.0 > 0.0 || a.behavior != Wandering ==> r == a.(timer := a.timer - 1.0)
    ensures a.timer - 1.0 <= 0.0 && a.behavior == Wandering ==> r == Wander(a, width, height, draw)
    ensures r.behavior == a.behavior && r.phase == a.phase
  {
    var moving := a.(timer := a.timer - 1.0);
    if moving.timer > 0.0 then moving
    else match moving.behavior
      case Wandering => Wander(moving, width, height, draw)
      case Carrying => if dropRoll < 0.003 then Drop(moving) else Carry(moving)
      case Panic => moving
  }

  predicate AllInWorld(ants: seq<Ant>, width: real, height: real) {
    forall i | 0 <= i < |ants| :: InWorld(ants[i].x, ants[i].y, width, height)
  }

  /** Every ant ticks on its own; the list keeps its length and order. */
  function MoveAnts(ants: seq<Ant>, width: real, height: real, draws: seq<AntSystem.Unit>, rolls: seq<real>): (r: seq<Ant>)
    requires |draws| == |ants| && |rolls| == |ants|
    ensures |r| == |ants|
    ensures forall i | 0 <= i < |ants| :: r[i] == MoveAnt(ants[i], width, height, draws[i], rolls[i])
    ensures AllInWorld(ants, width, height) ==> AllInWorld(r, width, height)
  {
    seq(|ants|, i requires 0 <= i < |ants| => MoveAnt(ants[i], width, height, draws[i], rolls[i]))
  }

  /** Repeated rounds of `MoveAnts`, each with its own draws. */
  function Run(ants: seq<Ant>, width: real, height: real, draws: seq<seq<AntSystem.Unit>>, rolls: seq<seq<real>>): (r: seq<Ant>)
    requires |rolls| == |draws|
    requires forall k | 0 <= k < |draws| :: |draws[k]| == |ants| && |rolls[k]| == |ants|
    ensures |r| == |ants|
    decreases |draws|
  {
    if |draws| == 0 then ants
    else Run(MoveAnts(ants, width, height, draws[0], rolls[0]), width, height, draws[1..], rolls[1..])
  }

  /** Ants that start inside the box stay inside it however many rounds pass. */
  lemma {:induction false} RunStaysInWorld(ants: seq<Ant>, width: real, height: real, draws: seq<seq<AntSystem.Unit>>, rolls: seq<seq<real>>)
    requires |rolls| == |draws|
    requires forall k | 0 <= k < |draws| :: |draws[k]| == |ants| && |rolls[k]| == |ants|
    requires AllInWorld(ants, width, height)
    ensures AllInWorld(Run(ants, width, height, draws, rolls), width, height)
    decreases |draws|
  {
    if |draws| > 0 {
      var next := MoveAnts(ants, width, height, draws[0], rolls[0]);
      RunStaysInWorld(next, width, height, draws[1..], rolls[1..]);
    }
  }

  /** Turning twice restores the ant. */
  lemma TurnTwice(a: Ant)
    ensures Turn(Turn(a)) == a
  {
  }
}

=== FILE: sand_fall_system.dfy ===
/**
 * The TypeScript `sandFall.ts` pass over a world that tracks loose sand as
 * a list of points. All targets are worked out first on the grid as it was;
 * then every grain that moves swaps cells with its target, in list order;
 * the list becomes the targets of the grains that moved; finally, again in
 * list order, each resting grain compacts the sand under it and each moved
 * grain loosens the sand around its new cell.
 */
module SandFallSystem {
  import opened Grid
  import opened Points
  import opened SandRules

  datatype SandWorld = SandWorld(elements: Grid<Cell>, fallingSandLocations: seq<Point>)

  /** Step k of the scan around c: appends the cell it visits when that is an unlisted Sand cell other than c. */
  function Visit(g: Grid<Cell>, list: seq<Point>, c: Point, k: nat): (r: seq<Point>)
    requires g.Valid() && k < 25
    ensures |list| <= |r| && r[..|list|] == list
    ensures forall q :: q in r <==> q in list || ((q.x != c.x || q.y != c.y) && IsSand(g, q.x, q.y) && Visits(k, c.x, c.y, q.x, q.y))
    ensures forall i | |list| <= i < |r| :: Loosenable(g, c.x, c.y, r[i].x, r[i].y)
    ensures NoDuplicates(list) ==> NoDuplicates(r)
  {
    var q := Point(c.x + WindowOffset(k).0, c.y + WindowOffset(k).1);
    if (q.x != c.x || q.y != c.y) && IsSand(g, q.x, q.y) && q !in list then
      assert (list + [q])[..|list|] == list;
      list + [q]
    else list
  }

  /**
   * Appends the Sand cells the scan around c visits from step k on, unless
   * already listed.
   */
  function LoosenFrom(g: Grid<Cell>, list: seq<Point>, c: Point, k: nat): (r: seq<Point>)
    requires g.Valid() && k <= 25
    ensures |list| <= |r| && r[..|list|] == list
    ensures forall q :: q in r <==> q in list || ScanHit(g, c.x, c.y, k, q.x, q.y)
    ensures forall i | |list| <= i < |r| :: Loosenable(g, c.x, c.y, r[i].x, r[i].y)
    ensures NoDuplicates(list) ==> NoDuplicates(r)
    decreases 25 - k
  {
    if k == 25 then list
    else
      var list' := Visit(g, list, c, k);
      ScanHitStep(g, c.x, c.y, k);
      var r := LoosenFrom(g, list', c, k + 1);
      assert r[..|list|] == r[..|list'|][..|list|];
      r
  }

  /**
   * Starts tracking every Sand cell within two cells of c on each axis,
   * other than c, that is not tracked yet; existing entries keep their place.
   */
  function LoosenNeighbors(g: Grid<Cell>, list: seq<Point>, c: Point): (r: seq<Point>)
    requires g.Valid()
    ensures |list| <= |r| && r[..|list|] == list
    ensures forall q :: q in r <==> q in list || Loosenable(g, c.x, c.y, q.x, q.y)
    ensures forall i | |list| <= i < |r| :: Loosenable(g, c.x, c.y, r[i].x, r[i].y)
    ensures NoDuplicates(list) ==> NoDuplicates(r)
  {
    ScanHitWindow(g, c.x, c.y);
    LoosenFrom(g, list, c, 0)
  }

  /** The last phase, from plan k on: compaction for resting grains, loosening for moved ones. */
  function Settle(g: Grid<Cell>, list: seq<Point>, plan: seq<Fall>, k: nat, threshold: nat): (r: SandWorld)
    requires g.Valid() && PlanOnGrid(g, plan) && k <= |plan|
    ensures r.elements.Valid() && SameShape(r.elements, g)
    ensures |list| <= |r.fallingSandLocations| && r.fallingSandLocations[..|list|] == list
    ensures forall i | |list| <= i < |r.fallingSandLocations| ::
      var q := r.fallingSandLocations[i]; g.InBounds(q.x, q.y) && NearLanding(plan, k, q)
    ensures (forall j | k <= j < |plan| :: Moves(plan[j])) ==> r.elements == g
    decreases |plan| - k
  {
    if k == |plan| then SandWorld(g, list)
    else
      var m := plan[k];
      if !Moves(m) then
        Settle(Compact(g, m.from, threshold), list, plan, k + 1, threshold)
      else
        var list' := LoosenNeighbors(g, list, m.to);
        var r := Settle(g, list', plan, k + 1, threshold);
        AppendedNear(g, list, list', r.fallingSandLocations, plan, k);
        r
  }

  lemma AppendedNear(g: Grid<Cell>, list: seq<Point>, list': seq<Point>, rl: seq<Point>, plan: seq<Fall>, k: nat)
    requires g.Valid() && k < |plan| && Moves(plan[k])
    requires |list| <= |list'| && list'[..|list|] == list
    requires forall i | |list| <= i < |list'| :: Loosenable(g, plan[k].to.x, plan[k].to.y, list'[i].x, list'[i].y)
    requires |list'| <= |rl| && rl[..|list'|] == list'
    requires forall i | |list'| <= i < |rl| :: g.InBounds(rl[i].x, rl[i].y) && NearLanding(plan, k + 1, rl[i])
    ensures rl[..|list|] == list
    ensures forall i | |list| <= i < |rl| :: g.InBounds(rl[i].x, rl[i].y) && NearLanding(plan, k, rl[i])
  {
    assert rl[..|list|] == rl[..|list'|][..|list|];
    forall i | |list| <= i < |rl|
      ensures g.InBounds(rl[i].x, rl[i].y) && NearLanding(plan, k, rl[i])
    {
      var q := rl[i];
      if i < |list'| {
        assert q == list'[i];
        assert Loosenable(g, plan[k].to.x, plan[k].to.y, q.x, q.y);
      } else {
        var j :| k + 1 <= j < |plan| && Moves(plan[j]) && -2 <= q.x - plan[j].to.x <= 2 && -2 <= q.y - plan[j].to.y <= 2;
      }
    }
  }

  /** One frame of `sandFall`; `coins[i]` is the tie-break draw of grain i. */
  function SandFall(w: SandWorld, threshold: nat, coins: seq<bool>): (r: SandWorld)
    requires w.elements.Valid() && OnGrid(w.elements, w.fallingSandLocations)
    requires |coins| == |w.fallingSandLocations|
    ensures r.elements.Valid() && SameShape(r.elements, w.elements)
    ensures OnGrid(r.elements, r.fallingSandLocations)
    ensures var moved := Moving(PlanAll(w.elements, w.fallingSandLocations, coins));
      |moved| <= |r.fallingSandLocations| && r.fallingSandLocations[..|moved|] == Targets(moved)
    ensures var plan := PlanAll(w.elements, w.fallingSandLocations, coins);
      var moved := Moving(plan);
      forall i | |moved| <= i < |r.fallingSandLocations| :: NearLanding(plan, 0, r.fallingSandLocations[i])
    ensures var plan := PlanAll(w.elements, w.fallingSandLocations, coins);
      (forall i | 0 <= i < |plan| :: Moves(plan[i])) ==>
        r.elements == SwapAll(w.elements, Moving(plan)) && SandCount(r.elements) == SandCount(w.elements)
  {
    var g := w.elements;
    var plan := PlanAll(g, w.fallingSandLocations, coins);
    var moved := Moving(plan);
    var g1 := SwapAll(g, moved);
    var r := Settle(g1, Targets(moved), plan, 0, threshold);
    forall i | 0 <= i < |r.fallingSandLocations|
      ensures r.elements.InBounds(r.fallingSandLocations[i].x, r.fallingSandLocations[i].y)
    {
      if i < |moved| {
        assert r.fallingSandLocations[i] == Targets(moved)[i];
        assert moved[i] in moved;
      }
    }
    r
  }

  /** A one-cell-wide gap two cells deep, with a grain of Sand on each rim. */
  const GapGrid: Grid<Cell> := Grid(3, 3, [[Sand, Air, Sand], [Dirt, Air, Dirt], [Dirt, Dirt, Dirt]])
  const GapGrains: seq<Point> := [Point(0, 0), Point(2, 0)]
  const GapPlan: seq<Fall> := [Fall(Point(0, 0), Point(1, 1)), Fall(Point(2, 0), Point(1, 1))]

  lemma GapTargets()
    ensures GapGrid.Valid() && OnGrid(GapGrid, GapGrains)
    ensures PlanAll(GapGrid, GapGrains, [false, false]) == GapPlan
  {
    assert GapGrid.Valid();
    assert Target(GapGrid, GapGrains[0], false) == Point(1, 1);
    assert Target(GapGrid, GapGrains[1], false) == Point(1, 1);
  }

  lemma GapSwaps()
    ensures GapGrid.Valid() && PlanOnGrid(GapGrid, GapPlan)
    ensures var g1 := SwapAll(GapGrid, GapPlan);
      g1.At(0, 0) == Air && g1.At(1, 1) == Sand && g1.At(2, 0) == Sand
  {
    assert GapGrid.Valid();
    assert PlanOnGrid(GapGrid, GapPlan) by {
      forall m | m in GapPlan ensures GapGrid.InBounds(m.from.x, m.from.y) && GapGrid.InBounds(m.to.x, m.to.y) {
        assert m == GapPlan[0] || m == GapPlan[1];
      }
    }
    var s1 := Swap(GapGrid, 0, 0, 1, 1);
    assert s1.At(1, 1) == Sand && s1.At(0, 0) == Air && s1.At(2, 0) == Sand;
    assert SwapAll(GapGrid, GapPlan) == SwapAll(s1, GapPlan[1..]);
    assert GapPlan[1..][1..] == [];
    assert SwapAll(s1, GapPlan[1..]) == SwapAll(Swap(s1, 2, 0, 1, 1), []);
  }

  /**
   * Two grains tipping into the same gap from either side: both are sent to
   * (1, 1), so the list tracks that cell twice, and the second swap trades
   * Sand for Sand, so the right-hand grain stays where it was.
   */
  lemma TwoGrainsOneTarget()
    ensures GapGrid.Valid() && OnGrid(GapGrid, GapGrains)
    ensures var r := SandFall(SandWorld(GapGrid, GapGrains), 15, [false, false]);
      && |r.fallingSandLocations| >= 2
      && r.fallingSandLocations[0] == Point(1, 1) && r.fallingSandLocations[1] == Point(1, 1)
      && r.elements.At(0, 0) == Air && r.elements.At(1, 1) == Sand && r.elements.At(2, 0) == Sand
  {
    GapTargets();
    GapSwaps();
    assert Moving(GapPlan) == GapPlan;
    assert Targets(GapPlan) == [Point(1, 1), Point(1, 1)];
    var r := SandFall(SandWorld(GapGrid, GapGrains), 15, [false, false]);
    var moved := Moving(PlanAll(GapGrid, GapGrains, [false, false]));
    assert moved == GapPlan;
    assert r.fallingSandLocations[..|moved|] == Targets(moved);
    assert |moved| == 2 && Targets(moved) == [Point(1, 1), Point(1, 1)];
    assert r.fallingSandLocations[0] == r.fallingSandLocations[..2][0];
    assert r.fallingSandLocations[1] == r.fallingSandLocations[..2][1];
  }
}

=== FILE: sand_rules.dfy ===
/**
 * The falling-sand rules the two TypeScript gravity passes (`sandFall.ts`
 * and `gravitySystem.ts`) share, each file carrying its own copy of them:
 * where a loose grain goes in one frame, how deep the sand under a cell
 * runs (`getSandDepth`), and how a resting grain compacts the stack under it.
 */
module SandRules {
  import opened Grid
  import opened Points

  /** Two Air cells stacked beside a grain: at (x, y) and (x, y + 1). */
  predicate SideOpen(g: Grid<Cell>, x: int, y: int)
    requires g.Valid()
  {
    IsAir(g, x, y) && IsAir(g, x, y + 1)
  }

  /**
   * Where the grain at p goes this frame: straight down into Air; otherwise
   * diagonally to a side whose two cells are Air, the coin picking right
   * when both sides are open; otherwise it stays.
   */
  function Target(g: Grid<Cell>, p: Point, coin: bool): (t: Point)
    requires g.Valid()
    ensures t.y == p.y || t.y == p.y + 1
    ensures t.y == p.y ==> t == p
    ensures t.y == p.y + 1 ==> IsAir(g, t.x, t.y) && -1 <= t.x - p.x <= 1
    ensures IsAir(g, p.x, p.y + 1) <==> t == Point(p.x, p.y + 1)
    ensures t == Point(p.x - 1, p.y + 1) ==> !IsAir(g, p.x, p.y + 1) && SideOpen(g, p.x - 1, p.y)
    ensures t == Point(p.x + 1, p.y + 1) ==> !IsAir(g, p.x, p.y + 1) && SideOpen(g, p.x + 1, p.y)
    ensures t == p <==> !IsAir(g, p.x, p.y + 1) && !SideOpen(g, p.x - 1, p.y) && !SideOpen(g, p.x + 1, p.y)
    ensures !IsAir(g, p.x, p.y + 1) && SideOpen(g, p.x - 1, p.y) && SideOpen(g, p.x + 1, p.y) ==>
      t == Point(if coin then p.x + 1 else p.x - 1, p.y + 1)
  {
    var goMiddle := IsAir(g, p.x, p.y + 1);
    var left := !goMiddle && SideOpen(g, p.x - 1, p.y);
    var right := !goMiddle && SideOpen(g, p.x + 1, p.y);
    var (goLeft, goRight) := if left && right then (!coin, coin) else (left, right);
    var xDelta := (if goRight then 1 else 0) + (if goLeft then -1 else 0);
    var yDelta := if goMiddle || goLeft || goRight then 1 else 0;
    Point(p.x + xDelta, p.y + yDelta)
  }

  /**
   * A resting grain at p measures the run of Sand under it, `d` cells; when
   * `d` reaches the threshold, cell (x, y + d) turns to Dirt: the deepest
   * grain of the run, or the grain itself when the run is empty.
   */
  function Compact(g: Grid<Cell>, p: Point, threshold: nat): (r: Grid<Cell>)
    requires g.Valid() && g.InBounds(p.x, p.y)
    ensures r.Valid() && SameShape(r, g)
    ensures var d := SandRun(g, p.x, p.y + 1);
      && (d >= threshold ==> r == g.Set(p.x, p.y + d, Dirt))
      && (d < threshold ==> r == g)
    ensures var d := SandRun(g, p.x, p.y + 1);
      d >= threshold && d > 0 ==> SandCount(r) + 1 == SandCount(g)
  {
    var d := SandRun(g, p.x, p.y + 1);
    if d >= threshold then
      SetSandCount(g, p.x, p.y + d, Dirt);
      g.Set(p.x, p.y + d, Dirt)
    else g
  }

  /** The cell compaction looks at for a grain at p: its own when no Sand is under it. */
  function CompactionCell(g: Grid<Cell>, p: Point): (c: Point)
    requires g.Valid()
    ensures c.x == p.x && c.y >= p.y
    ensures c != p ==> IsSand(g, c.x, c.y)
  {
    Point(p.x, p.y + SandRun(g, p.x, p.y + 1))
  }

  /** One tracked grain's plan for the frame. */
  datatype Fall = Fall(from: Point, to: Point)

  predicate Moves(m: Fall) {
    m.from.y != m.to.y
  }

  /** Every point lies on the grid. */
  predicate OnGrid(g: Grid<Cell>, ps: seq<Point>) {
    forall i | 0 <= i < |ps| :: g.InBounds(ps[i].x, ps[i].y)
  }

  predicate NoDuplicates(ps: seq<Point>) {
    forall i, j | 0 <= i < j < |ps| :: ps[i] != ps[j]
  }

  /** Both ends of every plan are on the grid. */
  predicate PlanOnGrid<T>(g: Grid<T>, plan: seq<Fall>) {
    forall m | m in plan :: g.InBounds(m.from.x, m.from.y) && g.InBounds(m.to.x, m.to.y)
  }

  /** Each grain's target, judged on the grid as it was before anything moved. */
  function PlanAll(g: Grid<Cell>, locs: seq<Point>, coins: seq<bool>): (plan: seq<Fall>)
    requires g.Valid() && |coins| == |locs| && OnGrid(g, locs)
    ensures |plan| == |locs| && PlanOnGrid(g, plan)
    ensures forall i | 0 <= i < |plan| :: plan[i].from == locs[i]
    ensures forall i | 0 <= i < |plan| :: Moves(plan[i]) ==> IsAir(g, plan[i].to.x, plan[i].to.y)
    ensures forall i | 0 <= i < |plan| :: !Moves(plan[i]) ==> plan[i].to == locs[i]
  {
    seq(|locs|, i requires 0 <= i < |locs| => Fall(locs[i], Target(g, locs[i], coins[i])))
  }

  /** The plans that move, in order. */
  function Moving(plan: seq<Fall>): (r: seq<Fall>)
    ensures |r| <= |plan|
    ensures forall m :: m in r <==> m in plan && Moves(m)
  {
    if |plan| == 0 then []
    else (if Moves(plan[0]) then [plan[0]] else []) + Moving(plan[1..])
  }

  /** Filtering keeps one plan when it moves and drops it otherwise. */
  lemma MovingSingle(m: Fall)
    ensures Moving([]) == []
    ensures Moving([m]) == if Moves(m) then [m] else []
  {
    assert [m][1..] == [];
  }

  /** Filtering distributes over concatenation, so it keeps order and repeats. */
  lemma {:induction false} MovingAppend(p: seq<Fall>, q: seq<Fall>)
    ensures Moving(p + q) == Moving(p) + Moving(q)
    decreases |p|
  {
    if |p| == 0 {
      assert p + q == q;
    } else {
      assert (p + q)[0] == p[0];
      assert (p + q)[1..] == p[1..] + q;
      MovingAppend(p[1..], q);
    }
  }

  /** No two plans start from the same cell. */
  predicate DistinctSources(plan: seq<Fall>) {
    forall i, j | 0 <= i < j < |plan| :: plan[i].from != plan[j].from
  }

  /** Filtering keeps the sources apart. */
  lemma {:induction false} MovingDistinct(plan: seq<Fall>)
    requires DistinctSources(plan)
    ensures DistinctSources(Moving(plan))
    decreases |plan|
  {
    if |plan| > 0 {
      var rest := plan[1..];
      assert DistinctSources(rest) by {
        forall i, j | 0 <= i < j < |rest| ensures rest[i].from != rest[j].from {
          assert rest[i] == plan[i + 1] && rest[j] == plan[j + 1];
        }
      }
      MovingDistinct(rest);
      var tail := Moving(rest);
      var r := Moving(plan);
      if Moves(plan[0]) {
        assert r == [plan[0]] + tail;
        forall i, j | 0 <= i < j < |r| ensures r[i].from != r[j].from {
          if i == 0 {
            assert r[j] == tail[j - 1] && tail[j - 1] in rest;
            var k :| 0 <= k < |rest| && rest[k] == tail[j - 1];
            assert rest[k] == plan[k + 1];
          } else {
            assert r[i] == tail[i - 1] && r[j] == tail[j - 1];
          }
        }
      } else {
        assert r == tail;
      }
    }
  }

  /** Some plan from step k on moved, and q is within two cells of where it landed. */
  predicate NearLanding(plan: seq<Fall>, k: nat, q: Point) {
    exists j | k <= j < |plan| :: Moves(plan[j]) && -2 <= q.x - plan[j].to.x <= 2 && -2 <= q.y - plan[j].to.y <= 2
  }

  function Targets(plan: seq<Fall>): (r: seq<Point>)
    ensures |r| == |plan| && forall i | 0 <= i < |plan| :: r[i] == plan[i].to
  {
    seq(|plan|, i requires 0 <= i < |plan| => plan[i].to)
  }

  /** Swaps each moving grain with its target, in order. */
  function SwapAll(g: Grid<Cell>, moves: seq<Fall>): (r: Grid<Cell>)
    requires g.Valid() && PlanOnGrid(g, moves)
    ensures r.Valid() && SameShape(r, g)
    ensures SandCount(r) == SandCount(g)
    decreases |moves|
  {
    if |moves| == 0 then g
    else
      var m := moves[0];
      SwapSandCount(g, m.from.x, m.from.y, m.to.x, m.to.y);
      var g' := Swap(g, m.from.x, m.from.y, m.to.x, m.to.y);
      SwapAll(g', moves[1..])
  }
}

=== FILE: tiles.dfy ===
/**
 * The TypeScript port's element world as `moveAnts.ts` and
 * `gravitySystem.ts` see it: every cell holds an element (Air, Dirt or
 * Sand) and an `active` flag marking loose sand that gravity must look at,
 * plus the surface row. The flags are kept as a second grid of the same size.
 */
module Tiles {
  import opened Grid
  import opened Points

  datatype World = World(elements: Grid<Cell>, active: Grid<bool>, surfaceLevel: int)

  predicate Valid(w: World) {
    w.elements.Valid() && w.active.Valid() && SameShape(w.elements, w.active)
  }

  /** Both worlds have grids of the same size and the same surface row. */
  predicate SameFrame(w: World, v: World) {
    SameShape(w.elements, v.elements) && w.surfaceLevel == v.surfaceLevel
  }

  predicate WithinBounds(w: World, p: Point) {
    w.elements.InBounds(p.x, p.y)
  }

  /** Off-grid points are never Air. */
  predicate AirAt(w: World, p: Point)
    requires Valid(w)
  {
    IsAir(w.elements, p.x, p.y)
  }

  /** An in-bounds cell holding Dirt or Sand. */
  predicate SolidAt(w: World, p: Point)
    requires Valid(w)
  {
    WithinBounds(w, p) && w.elements.At(p.x, p.y) != Air
  }

  function SetElement(w: World, p: Point, c: Cell): (r: World)
    requires Valid(w) && WithinBounds(w, p)
    ensures Valid(r) && SameFrame(r, w) && r.active == w.active
    ensures r.elements == w.elements.Set(p.x, p.y, c)
  {
    w.(elements := w.elements.Set(p.x, p.y, c))
  }

  function SetActive(w: World, p: Point, b: bool): (r: World)
    requires Valid(w) && WithinBounds(w, p)
    ensures Valid(r) && SameFrame(r, w) && r.elements == w.elements
    ensures r.active == w.active.Set(p.x, p.y, b)
  {
    w.(active := w.active.Set(p.x, p.y, b))
  }

  /** Exchanges two cells, element and flag together. */
  function SwapCells(w: World, p: Point, q: Point): (r: World)
    requires Valid(w) && WithinBounds(w, p) && WithinBounds(w, q)
    ensures Valid(r) && SameFrame(r, w)
    ensures r.elements == Swap(w.elements, p.x, p.y, q.x, q.y)
    ensures r.active == Swap(w.active, p.x, p.y, q.x, q.y)
  {
    w.(elements := Swap(w.elements, p.x, p.y, q.x, q.y), active := Swap(w.active, p.x, p.y, q.x, q.y))
  }

  /**
   * Marks every Sand cell within two cells of `c` on each axis, other than
   * `c` itself, as active.
   */
  function LoosenNeighbors(w: World, c: Point): (r: World)
    requires Valid(w)
    ensures Valid(r) && SameFrame(r, w) && r.elements == w.elements
    ensures forall i, j | w.elements.InBounds(i, j) ::
      r.active.At(i, j) == (w.active.At(i, j) || Loosenable(w.elements, c.x, c.y, i, j))
  {
    var W, H := w.active.width, w.active.height;
    var rows := seq(H, j requires 0 <= j < H =>
      seq(W, i requires 0 <= i < W => w.active.rows[j][i] || Loosenable(w.elements, c.x, c.y, i, j)));
    w.(active := Grid(W, H, rows))
  }
}

=== FILE: wrappers.dfy ===
/** Option and Result, for lookups that can miss and decoders that can fail. */
module Wrappers {
  datatype Option<+T> = None | Some(value: T)

  datatype Result<+T, +E> = Ok(value: T) | Err(error: E)
}
